=== FILE: README.md ===
# Day/night living background — Dafny model

A model of the logic behind the portfolio's day/night background. The
animated background (`home.jsx`) places a sun and a moon from their
horizontal coordinates, picks one of four themes from the sun's altitude,
crossfades one ambient loop per theme, and plays rise/set cues. The static
page (`index.jsx`) picks a theme and a body from the hour of the page load.

The animated background is written as pure transitions
`(state, inputs) -> (state', effects)`:

- `Sky` holds the theme and body enums, clock fields, the four greetings
  and the altitude classifier.
- `Projection` maps azimuth/altitude to a screen point (`azAltToScreen`).
- `Fallback` holds the time-of-day simulated positions. It also holds the
  choice between the ephemeris's answer and that fallback.
- `Mixer` holds the eight tracks and the effect datatype. It holds the
  gating rules of `playSFX`, `fadeAmbient`, `playAmbientIfAllowed` and
  `pauseAll`. `Settle` says what state each track ends in once a list of
  effects has run. "Everything is paused" is stated with it. So is "at most
  one ambient loop is heard": after a crossfade, after unlocking a fresh
  page, and at the end of any session whose inputs arrive in an order a
  browser can deliver (`Engine.Delivered`).
- `Engine` holds the tick (`moveBodies` with `updateThemeUsingSun`), the
  page events (gesture unlock, visibility, blur, focus) and sessions of
  ticks and events.
- `Picker` models `index.jsx`: hour → scene, and the sky-object class set.

The held theme is explicit engine state. In `home.jsx` the interval
callback and the listeners are closures from the first render. They
therefore compare against, and resume, that render's theme ("morning")
forever. That behaviour is modelled separately and listed under Findings.

Angles are `real`, and π is the fixed constant `Projection.Pi`,
3.141592653589793: the shortest decimal that rounds to the double
`Math.PI`. Both lie just below the true π. `Math.sin` is a
function parameter. The model assumes only what each lemma uses of it:
its range [-1, 1] (`BoundedSine`), positivity on (0, π) (`PositiveOnArc`),
its values at 0 and π/2, and, for the sun as written, that it is slightly
positive at `Math.PI` (`ProgramSine`).

Two rules one might expect are not in the code:

- The code has no moon-suppression rule, neither for daytime themes nor
  near new moon. The moon's opacity depends only on its altitude being
  above 0 (`home.jsx:275`).
- The fallback is taken only when an ephemeris call throws. A malformed
  answer is used as is.

## Model

| member | source | states |
|---|---|---|
| Sky.Classify | src/app/resource/component/my-projects/home.jsx:184-188 | the theme is afternoon above 0.6, morning on (0.25, 0.6], evening on (0, 0.25] and night at or below 0; each band is an if-and-only-if |
| Sky.ClassifyBoundaries | src/app/resource/component/my-projects/home.jsx:184-188 | altitude 0 gives night, 0.25 gives evening, 0.6 gives morning |
| Sky.ClassifyMonotone | src/app/resource/component/my-projects/home.jsx:184-188 | a higher sun never gives a theme lower on the night < evening < morning < afternoon scale |
| Sky.Greeting | src/app/resource/component/my-projects/home.jsx:193-198 | the four fixed messages, code point for code point |
| Sky.GreetingInjective | src/app/resource/component/my-projects/home.jsx:193-198 | the four fixed messages are pairwise distinct (their lengths differ), so each theme has its own |
| Projection.Clamp | src/app/resource/component/my-projects/home.jsx:157 | the result lies in [lo, hi], equals v inside it and the nearer bound outside |
| Projection.AzAltToScreen | src/app/resource/component/my-projects/home.jsx:155-160 | yVh stays in [-40, 40], is -40 at or above pi/2 and 40 at or below -pi/2, is negative exactly when the body is up; xPercent is in [0, 100] exactly when azimuth is in [-pi, pi] |
| Projection.AzimuthLandmarks | src/app/resource/component/my-projects/home.jsx:156-159 | azimuth -pi, 0 and pi land at 0, 50 and 100 percent |
| Projection.XMonotone | src/app/resource/component/my-projects/home.jsx:156-159 | a larger azimuth is never drawn further left |
| Projection.YAntitone | src/app/resource/component/my-projects/home.jsx:157-158 | a higher body is never drawn lower |
| Projection.ProjectionInvertible | src/app/resource/component/my-projects/home.jsx:155-159 | inside the declared ranges, azimuth and altitude are recovered exactly from the screen point |
| Fallback.HourOfDay | src/app/resource/component/my-projects/home.jsx:163 | the fractional hour lies in [hours, hours + 1) within [0, 24) |
| Fallback.SunProgress | src/app/resource/component/my-projects/home.jsx:165 | t is in [0, 1], 0 up to 06:00, 1 from 18:00, strictly inside exactly between them |
| Fallback.MoonProgress | src/app/resource/component/my-projects/home.jsx:171-172 | with hours before 06:00 shifted by 24, t is in [0, 1), 0 from 06:00 to 18:00, strictly positive exactly at night |
| Fallback.SimulatedSunAsWritten | src/app/resource/component/my-projects/home.jsx:164-169 | azimuth stays in [-0.6 pi, 0.6 pi] and altitude in [-pi/4, pi/4], so the position is within [-pi, pi] x [-pi/2, pi/2] |
| Fallback.SimulatedSun | src/app/resource/component/my-projects/home.jsx:164-169 | the corrected sun: the same azimuth and bounds, and on the horizon (altitude 0) whenever the hour is outside (06:00, 18:00) |
| Fallback.SimulatedMoon | src/app/resource/component/my-projects/home.jsx:170-177 | azimuth stays in [-0.6 pi, 0.6 pi] and altitude in [-pi/5, pi/5], so the position is in range |
| Fallback.SimulatedSunVisibility | src/app/resource/component/my-projects/home.jsx:165-168 | for any sine positive on (0, pi), the corrected sun is above the horizon exactly strictly between 06:00 and 18:00 |
| Fallback.SimulatedSunAsWrittenVisibility | src/app/resource/component/my-projects/home.jsx:165-168 | with the program's sine, the sun as written is above the horizon exactly after 06:00, until midnight |
| Fallback.SimulatedSunsDifferFromDusk | src/app/resource/component/my-projects/home.jsx:165-168 | the sun as written equals the corrected one exactly before 18:00; from 18:00 it sits just above the horizon in the evening band, where the corrected one gives night |
| Fallback.SimulatedMoonVisibility | src/app/resource/component/my-projects/home.jsx:171-175 | for any sine zero at 0 and positive on (0, pi), the simulated moon is above the horizon exactly after 18:00 or before 06:00 (its progress never reaches 1) |
| Fallback.SimulatedSunAtNoon | src/app/resource/component/my-projects/home.jsx:165-168 | for any sine that is 1 at pi/2, at 12:00 the sun is at azimuth 0 and altitude pi/4, the highest it reaches at any time |
| Fallback.SimulatedMoonAtMidnight | src/app/resource/component/my-projects/home.jsx:171-175 | for any sine that is 1 at pi/2, at 00:00 the moon is at azimuth 0 and altitude pi/5 |
| Fallback.ComputePositions | src/app/resource/component/my-projects/home.jsx:247-254 | an answering ephemeris is used unchanged; only a throw switches both bodies to the simulated positions (the corrected sun), which are in range |
| Mixer.Loaded | src/app/resource/component/my-projects/home.jsx:54-67 | a track as loaded: ambient loops muted at volume 0, cues unmuted at the media default 1, nothing playing |
| Mixer.PlaySfx | src/app/resource/component/my-projects/home.jsx:129-139 | a cue plays iff audio is unlocked and the page is visible and focused; otherwise nothing is requested, so the cue is dropped; it touches only its own track and rewinds immediately before the play |
| Mixer.PlaySfxSettles | src/app/resource/component/my-projects/home.jsx:134-137 | a played cue ends up playing at volume 0.5 |
| Mixer.FadeOut | src/app/resource/component/my-projects/home.jsx:143-145 | one 0.3 s fade to volume 0 per listed theme, in order |
| Mixer.SettleFadeOut | src/app/resource/component/my-projects/home.jsx:143-145 | after the fade-out the listed ambient tracks sit at volume 0 and no other track changed |
| Mixer.FadeAmbient | src/app/resource/component/my-projects/home.jsx:141-150 | nothing while hidden or unfocused; otherwise only ambient tracks are touched and the only one started is the new theme's; audio readiness is not an input |
| Mixer.FadeAmbientSettles | src/app/resource/component/my-projects/home.jsx:141-150 | after a crossfade the new loop plays at 0.5, every other loop is at 0 with nothing else changed, and cue tracks are untouched |
| Mixer.FadeAmbientLeavesOneAudible | src/app/resource/component/my-projects/home.jsx:141-150 | after a crossfade no ambient loop but the new theme's can be heard |
| Mixer.PlayAmbientIfAllowed | src/app/resource/component/my-projects/home.jsx:87-97 | requests something iff unlocked, visible and focused; it touches and starts only the given theme's loop |
| Mixer.PlayAmbientSettles | src/app/resource/component/my-projects/home.jsx:92-95 | a permitted resume leaves the loop playing, unmuted, at 0.5 |
| Mixer.PauseEach | src/app/resource/component/my-projects/home.jsx:83-84 | one pause per listed track, in order |
| Mixer.PauseAll | src/app/resource/component/my-projects/home.jsx:82-85 | every one of the eight tracks is paused and nothing but pauses is requested, so nothing is started or turned up |
| Mixer.SettlePauseEach | src/app/resource/component/my-projects/home.jsx:83-84 | the listed tracks stop and no other track changes |
| Mixer.PauseAllSilences | src/app/resource/component/my-projects/home.jsx:82-85 | after pausing all, no track is playing or audible, whatever the prior state |
| Engine.Initial | src/app/resource/component/my-projects/home.jsx:19-27 | the state on page load: theme morning, empty message, both bodies counted as down, audio locked |
| Engine.UpdateTheme | src/app/resource/component/my-projects/home.jsx:183-201 | the held theme becomes the classified one; the greeting shown becomes the new theme's only on a change; nothing else in the state changes; a crossfade to the new theme is requested iff the theme changed and the page is in the foreground |
| Engine.UpdateThemeAsWritten | src/app/resource/component/my-projects/home.jsx:190-199 | a morning classification changes nothing; any other switches to that theme and its greeting, and crossfades to its loop whenever the page is in the foreground, even when that theme is already held; nothing else in the state changes |
| Engine.Edge | src/app/resource/component/my-projects/home.jsx:262-266 | rise iff now visible and before not, set iff now hidden and before visible, none iff unchanged |
| Engine.CueEffects | src/app/resource/component/my-projects/home.jsx:262-266 | a cue is played iff it is the edge's cue and the gate allows it; only cue tracks are touched |
| Engine.Opacity | src/app/resource/component/my-projects/home.jsx:274-275 | 1 iff the altitude is above 0, else 0 |
| Engine.Tween | src/app/resource/component/my-projects/home.jsx:232-240 | a body's move target lies within 40 vh of the horizon, above it exactly when the body is up, and within 50 percent of the centre for an in-range position |
| Engine.Motion | src/app/resource/component/my-projects/home.jsx:271-275 | only body tweens are requested; each body is sent to its projected point; each body fades to 1 iff up and to 0 iff down, and to no other opacity |
| Engine.Fades | src/app/resource/component/my-projects/home.jsx:274-275 | each body fades to 1 iff up and to 0 iff down, and to no other opacity |
| Engine.MotionTargets | src/app/resource/component/my-projects/home.jsx:271-272 | the only moves are the two bodies' tweens; every move target of a tick is within [-40, 40] vh, and within [-50, 50] percent when both positions are in range |
| Engine.Cues | src/app/resource/component/my-projects/home.jsx:259-266 | each of the four cues plays iff its edge occurs, audio is unlocked and the page is in the foreground; nothing plays in the background |
| Engine.EdgesAndMotion | src/app/resource/component/my-projects/home.jsx:268-269 | the retained flags become this tick's visibility and nothing else in the state changes |
| Engine.Tick | src/app/resource/component/my-projects/home.jsx:245-276 | after a tick the theme is the classified one, the greeting shown becomes the new theme's only on a change, the flags equal this tick's visibility and readiness is unchanged |
| Engine.TickMessage | src/app/resource/component/my-projects/home.jsx:190-199 | after a tick the message is unchanged when the theme is, and otherwise is the new theme's greeting and no other theme's |
| Engine.TickParts | src/app/resource/component/my-projects/home.jsx:256-275 | a tick's effects are the crossfade, then the cues, then the body tweens |
| Engine.TickCues | src/app/resource/component/my-projects/home.jsx:259-266 | sunRise iff the sun is up and was not, sunSet iff it is down and was up, and the same for the moon, all gated on unlock and foreground |
| Engine.TickCrossfade | src/app/resource/component/my-projects/home.jsx:190-192 | an ambient loop starts iff the classified theme differs from the held one and the page is in the foreground, and it is the new theme's |
| Engine.TickOpacity | src/app/resource/component/my-projects/home.jsx:274-275 | sun and moon fade to 1 iff above the horizon and to 0 iff not; no moon suppression |
| Engine.TickSilentInBackground | src/app/resource/component/my-projects/home.jsx:129-142 | a hidden or unfocused tick plays nothing, even on a genuine edge |
| Engine.MoveBodies | src/app/resource/component/my-projects/home.jsx:245-269 | an answering ephemeris decides theme and flags; a throwing one hands the decision to the corrected simulated sun |
| Engine.FallbackDayAndNight | src/app/resource/component/my-projects/home.jsx:248-260 | with the ephemeris down and the corrected sun, the sun counts as up exactly from 06:00 to 18:00, the theme is night exactly outside that window, and the moon counts as up exactly from 18:00 to 06:00 |
| Engine.FallbackEveningAsWritten | src/app/resource/component/my-projects/home.jsx:165-168 | from 18:00, a fallback tick with the sun as written counts the sun as up and holds the evening theme; the corrected fallback counts it as down and holds night |
| Engine.TickAsWritten | src/app/resource/component/my-projects/home.jsx:245-276 | a morning-band sun leaves theme and greeting as they were; any other band sets that theme and its greeting; an ambient loop starts iff it is the band's theme, not morning, and the page is in the foreground, even when that theme is already held; the flags and readiness evolve as in the corrected tick |
| Engine.TickIdempotent | src/app/resource/component/my-projects/home.jsx:190-269 | a second tick on the same positions leaves the state unchanged and requests only the body tweens: no cue, no crossfade |
| Engine.SuppressedCueIsDropped | src/app/resource/component/my-projects/home.jsx:129-131 | an edge missed while in the background is not replayed once the page is back in the foreground |
| Engine.StaleThemeRefades | src/app/resource/component/my-projects/home.jsx:190-191 | with the stale comparison, a held night theme crossfades to the night loop again on the next night tick; the corrected tick does not |
| Engine.StaleThemeSkipsMorning | src/app/resource/component/my-projects/home.jsx:190-192 | with the stale comparison, a morning-band sun leaves a held night theme unchanged; the corrected tick moves it to morning |
| Engine.SunOnlyCues | src/app/resource/component/my-projects/home.jsx:262-266 | with the moon staying down, an unlocked foreground tick plays exactly the sun's edge cue, if any |
| Engine.RiseSetExample | src/app/resource/component/my-projects/home.jsx:259-269 | sun altitudes -0.1, 0.1, 0.1, -0.1 play nothing, sunRise, nothing, sunSet |
| Engine.Resume | src/app/resource/component/my-projects/home.jsx:87-97 | the only track started or turned up is the held theme's loop, and only when unlocked, visible and focused; it is started whenever those hold |
| Engine.ResumeAsWritten | src/app/resource/component/my-projects/home.jsx:87-97 | it starts the morning loop iff audio is unlocked and the page is visible and focused, whatever theme is held, and starts no other track |
| Engine.StaleResumePlaysMorning | src/app/resource/component/my-projects/home.jsx:91 | with a held night theme, the stale resume starts the morning loop and not the night one; the corrected resume starts the night one |
| Engine.UnmuteEach | src/app/resource/component/my-projects/home.jsx:72 | one unmute per listed theme's loop, in order |
| Engine.SettleUnmuteEach | src/app/resource/component/my-projects/home.jsx:72 | the listed loops become unmuted and nothing else changes |
| Engine.Unlock | src/app/resource/component/my-projects/home.jsx:69-74 | readiness becomes true; if it already was, nothing is requested; otherwise every ambient loop is unmuted, and the held theme's loop is the only one started or turned up, only in the foreground |
| Engine.UnlockOneShot | src/app/resource/component/my-projects/home.jsx:69-71 | a second unlock changes nothing and requests nothing |
| Engine.UnlockLeavesHeldThemeAudible | src/app/resource/component/my-projects/home.jsx:69-74 | unlocking a freshly loaded page in the foreground makes exactly the held theme's loop audible |
| Engine.HandleEvent | src/app/resource/component/my-projects/home.jsx:69-105 | only a gesture changes the state, and it only sets readiness; hide or blur requests exactly `pauseAll`; show or focus starts the held theme's loop iff audio is unlocked and the page is in the foreground, and nothing else; no event starts or turns up any track but the held theme's loop; no event plays a cue |
| Engine.ApplyReady | src/app/resource/component/my-projects/home.jsx:69-71 | one input sets readiness iff it was set or the input is a gesture |
| Engine.ReadyOnlyByGesture | src/app/resource/component/my-projects/home.jsx:69-80 | over any session, readiness is set at the end iff it was set at the start or some input was a gesture; it never resets |
| Engine.CuesCount | src/app/resource/component/my-projects/home.jsx:262-266 | a tick's cue part plays each cue at most once |
| Engine.TickCueCount | src/app/resource/component/my-projects/home.jsx:262-266 | a tick plays each cue at most once |
| Engine.ApplyCueCounts | src/app/resource/component/my-projects/home.jsx:259-269 | unlocked and in the foreground, one input's rises minus sets equals the change of each body's flag |
| Engine.CuesBalance | src/app/resource/component/my-projects/home.jsx:259-269 | over any unlocked session with foreground ticks, each body's rises minus sets equals the change of its flag, so the two counts never differ by more than one |
| Engine.EventCalm | src/app/resource/component/my-projects/home.jsx:69-105 | no page event makes a loop live other than the held theme's; outside the foreground every event leaves the ambient loops stopped, provided only a pausing event left the foreground |
| Engine.TickCalm | src/app/resource/component/my-projects/home.jsx:183-276 | a tick keeps every loop but the new held theme's silent, and starts nothing outside the foreground |
| Engine.SessionCalm | src/app/resource/component/my-projects/home.jsx:69-105 | over any delivered session from a fresh page, only the held theme's loop can be live, and after a pausing event no loop plays until the page is back in the foreground |
| Engine.OnlyHeldThemeHeard | src/app/resource/component/my-projects/home.jsx:69-105 | at the end of any delivered session from a fresh page, the only ambient loop that can be heard is the held theme's |
| Engine.RunSession | src/app/resource/component/my-projects/home.jsx:295-296 | running the inputs one at a time yields the session's state and effects, and readiness as the gesture lemma says |
| Picker.StaticGreeting | src/app/resource/component/my-projects/index.jsx:16-29 | the static page's four messages; the night one has an ASCII apostrophe |
| Picker.StaticGreetingDiffersOnlyAtNight | src/app/resource/component/my-projects/index.jsx:13-31 | the static page's greetings equal the animated page's except the night one |
| Picker.SceneAt | src/app/resource/component/my-projects/index.jsx:13-31 | 06-11 gives morning with the sun, 12-14 afternoon with the sun, 15-23 and 00-05 night with the moon; the sun is drawn iff the theme is morning or afternoon; the message is the theme's greeting |
| Picker.EveningUnreachable | src/app/resource/component/my-projects/index.jsx:21-24 | no hour gives the evening theme |
| Picker.SceneWithEvening | src/app/resource/component/my-projects/index.jsx:13-31 | each theme holds exactly on its hour window, with evening on [15, end); the sun is drawn iff the theme is not night |
| Picker.AsWrittenHasEmptyEvening | src/app/resource/component/my-projects/index.jsx:21 | the page as written equals the corrected picker with evening window end 15 |
| Picker.EveningReachable | src/app/resource/component/my-projects/index.jsx:21-24 | with a non-empty window, 15:00 gives evening with the sun |
| Picker.ClassNameInjective | src/app/resource/component/my-projects/index.jsx:46-57 | distinct classes have distinct names |
| Picker.SkyObjectClasses | src/app/resource/component/my-projects/index.jsx:46-57 | always sky-object and the body; otherwise at most the theme's own position class and below-horizon; no position class iff (night, sun) or (afternoon, moon); below-horizon iff a sun outside morning or a moon outside evening and night |
| Picker.AtMostOnePosition | src/app/resource/component/my-projects/index.jsx:47-53 | any two position classes on the element are the same one, the theme's |
| Picker.ClassesByHour | src/app/resource/component/my-projects/index.jsx:45-57 | the exact class set per hour window; the afternoon sun also carries below-horizon |
| Picker.EveningClasses | src/app/resource/component/my-projects/index.jsx:49-55 | an evening sun carries evening-position and below-horizon |
| Picker.NightExtrasByHour | src/app/resource/component/my-projects/index.jsx:65-72 | the stars and the message button show iff the hour is before 06 or from 15 |
| Picker.NightExtrasWithEvening | src/app/resource/component/my-projects/index.jsx:65-72 | with an evening window, they show iff the hour is before 06 or from the window's end |

## Left out

- Rendering is not modelled: React state, refs, JSX and the
  `main-container` theme class. The held theme and message are explicit
  state instead.
- GSAP tweens appear only as their targets (`FadeTo`, `MoveTo`,
  `SetOpacity`). Only `FadeTo` carries its duration in seconds. The 2.2 s
  `power2.out` body move and the default timing of the opacity tweens are
  dropped. There
  is no interpolation or easing. `Settle` takes each tween's end value.
- Browser audio objects are not modelled: preload, `loop`, `mediaSession`
  and the cleanup that clears `src`. `Settle` treats a `play()` as
  succeeding. The source swallows a rejected play, which leaves that track
  not playing, while the unmute and the volume tween around it still run.
- Listener wiring is left out: registration, the 50 ms delay before the
  gesture listeners, and the one-shot listener option. A gesture is an
  input. `unlock` is one-shot by its own flag either way.
- The 60-second interval and the first immediate call are left out.
  `RunSession` consumes any sequence of inputs in delivery order.
- Engine.OnlyHeldThemeHeard: holds for inputs in an order a browser can
  deliver, where the page leaves the foreground only through a blur or a
  visibility change that hides it. A session that hides the page without
  either event can leave two loops audible.
- The SunCalc calls are an opaque `Ephemeris` input: an answer or a throw.
- `updateMoonPhase` is left out. It only writes CSS variables.
- `Math.sin` is a parameter and `Math.PI` a fixed real. Floating-point
  rounding is not modelled in general. It is kept in one place where it
  decides a result: `Math.sin(Math.PI)` is taken to lie in (0, 1e-15),
  as `ProgramSine` states.
- The `alert` of the message button, the styles and the cloud layer are
  left out.
- The first render of `index.jsx`, before its effect has run (empty theme
  and body), is left out.
- Fallback.ComputePositions: on a throw it returns the corrected sun,
  which sits at altitude 0 from 18:00, not the slightly positive altitude
  of `simulatedAzAlt` as written. The as-written sun is
  `SimulatedSunAsWritten`, listed under Findings.
- Engine.MoveBodies: on a throw from 18:00 it counts the sun as down and
  holds night, because it uses the corrected sun. As written the page
  counts the sun as up and holds evening, as `FallbackEveningAsWritten`
  shows.
- Engine.Tick: its contract covers only the state. What a tick plays and
  shows is stated by `TickCues`, `TickCrossfade`, `TickOpacity` and
  `TickSilentInBackground`.
- Engine.Tween: the horizontal target is bounded, not given exactly.
  `Projection.AzAltToScreen` and its lemmas state the exact mapping.

## Findings

| source | as written | input that shows it | evidently intended | confidence | as-written member | corrected member |
|---|---|---|---|---|---|---|
| src/app/resource/component/my-projects/home.jsx:190 | the change check compares with the first render's theme, "morning", because the interval runs the first render's closure (lines 295-296) | held theme night, sun altitude -0.1, two foreground ticks: both crossfade to the night loop; a morning-band sun (0.3) never returns a held night theme to morning | compare with the theme currently held | high; not executed | Engine.TickAsWritten, Engine.StaleThemeRefades, Engine.StaleThemeSkipsMorning | Engine.Tick, Engine.TickIdempotent |
| src/app/resource/component/my-projects/home.jsx:91 | `playAmbientIfAllowed` reads the first render's theme, so unlock, show and focus resume the morning loop | held theme night, audio unlocked, page regains focus: the morning loop starts, the night loop does not | resume the held theme's loop | high; not executed | Engine.ResumeAsWritten, Engine.StaleResumePlaysMorning | Engine.Resume, Engine.UnlockLeavesHeldThemeAudible |
| src/app/resource/component/my-projects/index.jsx:21 | the evening test is `hour >= 15 && hour < 15`, which no hour meets | hour 16 gives night with the moon, never evening | an evening window from 15:00 to some later hour (the end is not stated, so it is a parameter) | medium: the intended end hour is unknown; not executed | Picker.SceneAt, Picker.EveningUnreachable | Picker.SceneWithEvening, Picker.EveningReachable |
| src/app/resource/component/my-projects/home.jsx:165-168 | from 18:00 the sun's progress is clamped to 1 and its altitude is `Math.sin(Math.PI) * (Math.PI / 4)`, about 9.6e-17, which is above 0 | ephemeris throwing at 20:00: the sun counts as visible at opacity 1, the theme is evening, and the sunSet cue waits until 00:00 | the sun sets at 18:00: altitude 0 at both ends of its window | high; not executed | Fallback.SimulatedSunAsWritten, Fallback.SimulatedSunAsWrittenVisibility, Fallback.SimulatedSunsDifferFromDusk, Engine.FallbackEveningAsWritten | Fallback.SimulatedSun, Fallback.SimulatedSunVisibility, Fallback.ComputePositions, Engine.MoveBodies, Engine.FallbackDayAndNight |

=== FILE: engine.dfy ===
/**
  One tick of the animated background (`moveBodies` and
  `updateThemeUsingSun`, home.jsx) and the page events that unlock, pause
  and resume audio, written as transitions
  `(state, inputs) -> (state', effects)`.

  The held theme is explicit state here. In home.jsx the interval callback
  and the page listeners are closures captured on the first render, so they
  compare against, and resume, that render's theme, "morning", for the life
  of the page; `UpdateThemeAsWritten` and `ResumeAsWritten` model that, and
  the rest of the model uses the held theme.
 */
module Engine {
  import opened Wrappers
  import opened Sky
  import opened Projection
  import opened Fallback
  import opened Mixer

  /**
    What the engine remembers between ticks: the held theme and the theme
    whose greeting is on screen (none while the message is still empty),
    each body's visibility on the previous tick, and whether a user gesture
    has unlocked audio.
   */
  datatype SkyState = SkyState(
    theme: Theme,
    greeting: Option<Theme>,
    prevSunVisible: bool,
    prevMoonVisible: bool,
    audioReady: bool)

  /** The state on page load: morning, no message, both bodies hidden, audio locked. */
  const Initial: SkyState := SkyState(Morning, None, false, false, false)

  /** The message on screen: empty until the first theme change, then that theme's greeting. */
  function Message(s: SkyState): string
  {
    match s.greeting
    case None => ""
    case Some(t) => Greeting(t)
  }

  /** A new state together with the effects that produced it. */
  datatype Outcome = Outcome(state: SkyState, effects: seq<Effect>)

  // ---------------------------------------------------------------------------
  // Theme transitions

  /**
    `updateThemeUsingSun`: classify the sun's altitude and, only when that
    differs from the held theme, switch theme and message and crossfade.
   */
  function UpdateTheme(s: SkyState, sunAlt: real, page: Page): (r: Outcome)
    ensures r.state.theme == Classify(sunAlt)
    ensures r.state.greeting == if Classify(sunAlt) == s.theme then s.greeting else Some(Classify(sunAlt))
    ensures r.state.(theme := s.theme, greeting := s.greeting) == s
    ensures r.effects != [] <==> Classify(sunAlt) != s.theme && Foreground(page)
    ensures forall e :: e in r.effects ==> OnAmbient(e)
    ensures forall t :: Play(Ambient(t)) in r.effects <==>
      t == Classify(sunAlt) && t != s.theme && Foreground(page)
  {
    var newTheme := Classify(sunAlt);
    if newTheme != s.theme then
      Outcome(s.(theme := newTheme, greeting := Some(newTheme)), FadeAmbient(page, newTheme))
    else
      Outcome(s, [])
  }

  /**
    `updateThemeUsingSun` as written: the comparison is against the
    first render's theme, morning, not against the held theme.
   */
  function UpdateThemeAsWritten(s: SkyState, sunAlt: real, page: Page): (r: Outcome)
    ensures Classify(sunAlt) == Morning ==> r == Outcome(s, [])
    ensures Classify(sunAlt) != Morning ==> r.state.theme == Classify(sunAlt)
    ensures Classify(sunAlt) != Morning ==> r.state.greeting == Some(Classify(sunAlt))
    ensures r.state.(theme := s.theme, greeting := s.greeting) == s
    ensures r.effects != [] <==> Classify(sunAlt) != Morning && Foreground(page)
    ensures forall t :: Play(Ambient(t)) in r.effects <==>
      t == Classify(sunAlt) && t != Morning && Foreground(page)
  {
    var newTheme := Classify(sunAlt);
    if newTheme != Morning then
      Outcome(s.(theme := newTheme, greeting := Some(newTheme)), FadeAmbient(page, newTheme))
    else
      Outcome(s, [])
  }

  // ---------------------------------------------------------------------------
  // Rise/set edges and body motion

  /** The cue for a change of visibility: `rise` on false -> true, `fall` on true -> false. */
  function Edge(prev: bool, visible: bool, rise: Cue, fall: Cue): (r: Option<Cue>)
    requires rise != fall
    ensures r == Some(rise) <==> visible && !prev
    ensures r == Some(fall) <==> !visible && prev
    ensures r == None <==> visible == prev
    ensures r == None || r == Some(rise) || r == Some(fall)
  {
    if visible && !prev then Some(rise)
    else if !visible && prev then Some(fall)
    else None
  }

  /** The effects of playing an edge's cue, if there is one. */
  function CueEffects(ready: bool, page: Page, edge: Option<Cue>): (r: seq<Effect>)
    ensures forall c :: Play(Sfx(c)) in r <==> edge == Some(c) && ready && Foreground(page)
    ensures forall e :: e in r ==> OnCue(e)
  {
    match edge
    case None => []
    case Some(c) => PlaySfx(ready, page, c)
  }

  /** Opacity a body is faded to: 1 above the horizon, 0 otherwise. */
  function Opacity(altitude: real): (o: int)
    ensures o == 1 <==> altitude > 0.0
    ensures o == 0 <==> altitude <= 0.0
  {
    if altitude > 0.0 then 1 else 0
  }

  /**
    `animateTo` for one body: its element is sent to the projected point,
    the horizontal offset centred on 0.
   */
  function Tween(b: Body, p: Position): (e: Effect)
    ensures e.MoveTo? && e.body == b
    ensures -Travel <= e.yVh <= Travel
    ensures e.yVh < 0.0 <==> p.altitude > 0.0
    ensures InRange(p) ==> -50.0 <= e.xPercent <= 50.0
  {
    var sp := AzAltToScreen(p);
    MoveTo(b, sp.xPercent - 50.0, sp.yVh)
  }

  /**
    `animateTo` and the opacity tweens for both bodies: each element is moved
    to its projected point (horizontal offset centred on 0) and faded to its
    visibility. Nothing here depends on the engine's state.
   */
  function Motion(sun: Position, moon: Position): (r: seq<Effect>)
    ensures forall e :: e in r ==> OnBody(e)
    ensures Tween(Sun, sun) in r && Tween(Moon, moon) in r
    ensures SetOpacity(Sun, 1) in r <==> sun.altitude > 0.0
    ensures SetOpacity(Sun, 0) in r <==> sun.altitude <= 0.0
    ensures SetOpacity(Moon, 1) in r <==> moon.altitude > 0.0
    ensures SetOpacity(Moon, 0) in r <==> moon.altitude <= 0.0
    ensures forall b, o :: SetOpacity(b, o) in r ==> o == 0 || o == 1
  {
    var tweens := [Tween(Sun, sun), Tween(Moon, moon)];
    assert forall e :: e in tweens ==> e.MoveTo?;
    MovesThenFades(tweens, Fades(sun, moon));
    tweens + Fades(sun, moon)
  }

  /** Moves followed by opacity tweens: only body tweens, and the opacity tweens are exactly the second part's. */
  lemma MovesThenFades(moves: seq<Effect>, fades: seq<Effect>)
    requires forall e :: e in moves ==> e.MoveTo?
    requires forall e :: e in fades ==> e.SetOpacity?
    ensures forall e :: e in moves + fades ==> OnBody(e)
    ensures forall b, o :: SetOpacity(b, o) in moves + fades <==> SetOpacity(b, o) in fades
    ensures forall e :: e in moves ==> e in moves + fades
  {
  }

  /** The opacity tweens: each body fades to 1 when it is up and to 0 when it is not. */
  function Fades(sun: Position, moon: Position): (r: seq<Effect>)
    ensures forall e :: e in r ==> e.SetOpacity?
    ensures SetOpacity(Sun, 1) in r <==> sun.altitude > 0.0
    ensures SetOpacity(Sun, 0) in r <==> sun.altitude <= 0.0
    ensures SetOpacity(Moon, 1) in r <==> moon.altitude > 0.0
    ensures SetOpacity(Moon, 0) in r <==> moon.altitude <= 0.0
    ensures forall b, o :: SetOpacity(b, o) in r ==> o == 0 || o == 1
  {
    [SetOpacity(Sun, Opacity(sun.altitude)), SetOpacity(Moon, Opacity(moon.altitude))]
  }

  /** The sun's edge on this tick, against the flag kept from the previous tick. */
  function SunEdge(s: SkyState, sun: Position): Option<Cue>
  {
    Edge(s.prevSunVisible, sun.altitude > 0.0, SunRise, SunSet)
  }

  /** The moon's edge on this tick, against the flag kept from the previous tick. */
  function MoonEdge(s: SkyState, moon: Position): Option<Cue>
  {
    Edge(s.prevMoonVisible, moon.altitude > 0.0, MoonRise, MoonSet)
  }

  /** Playing two edges' cues plays a cue iff one of the edges names it and the gate is open. */
  lemma PairPlays(ready: bool, page: Page, e1: Option<Cue>, e2: Option<Cue>)
    ensures var r := CueEffects(ready, page, e1) + CueEffects(ready, page, e2);
      && (forall c :: Play(Sfx(c)) in r <==> (e1 == Some(c) || e2 == Some(c)) && ready && Foreground(page))
      && (forall e :: e in r ==> OnCue(e))
      && (!Foreground(page) ==> r == [])
  {
  }

  /**
    Where the bodies are sent: the only moves are the two bodies' tweens,
    every vertical target lies within the travel band, and for in-range
    positions every horizontal offset lies within half a screen of the centre.
   */
  lemma MotionTargets(sun: Position, moon: Position)
    ensures forall e :: e in Motion(sun, moon) && e.MoveTo? ==> e == Tween(Sun, sun) || e == Tween(Moon, moon)
    ensures forall b, x, y :: MoveTo(b, x, y) in Motion(sun, moon) ==> -Travel <= y <= Travel
    ensures InRange(sun) && InRange(moon) ==>
      forall b, x, y :: MoveTo(b, x, y) in Motion(sun, moon) ==> -50.0 <= x <= 50.0
  {
    forall e | e in Motion(sun, moon) && e.MoveTo? ensures e == Tween(Sun, sun) || e == Tween(Moon, moon) {
      MotionMove(sun, moon, e);
    }
    forall b, x, y | MoveTo(b, x, y) in Motion(sun, moon)
      ensures -Travel <= y <= Travel
      ensures InRange(sun) && InRange(moon) ==> -50.0 <= x <= 50.0
    {
      MotionMove(sun, moon, MoveTo(b, x, y));
    }
  }

  /** A move of a tick is one of the two bodies' tweens. */
  lemma MotionMove(sun: Position, moon: Position, e: Effect)
    requires e in Motion(sun, moon) && e.MoveTo?
    ensures e == Tween(Sun, sun) || e == Tween(Moon, moon)
  {
    var tweens := [Tween(Sun, sun), Tween(Moon, moon)];
    assert Motion(sun, moon) == tweens + Fades(sun, moon);
    assert e !in Fades(sun, moon);
    assert e in tweens;
  }

  /**
    The rise/set cues of a tick: each body's visibility on this tick is
    compared with the flag kept from the previous tick.
   */
  function Cues(s: SkyState, sun: Position, moon: Position, page: Page): (r: seq<Effect>)
    ensures Play(Sfx(SunRise)) in r <==>
      sun.altitude > 0.0 && !s.prevSunVisible && s.audioReady && Foreground(page)
    ensures Play(Sfx(SunSet)) in r <==>
      sun.altitude <= 0.0 && s.prevSunVisible && s.audioReady && Foreground(page)
    ensures Play(Sfx(MoonRise)) in r <==>
      moon.altitude > 0.0 && !s.prevMoonVisible && s.audioReady && Foreground(page)
    ensures Play(Sfx(MoonSet)) in r <==>
      moon.altitude <= 0.0 && s.prevMoonVisible && s.audioReady && Foreground(page)
    ensures forall e :: e in r ==> OnCue(e)
    ensures !Foreground(page) ==> r == []
  {
    PairPlays(s.audioReady, page, SunEdge(s, sun), MoonEdge(s, moon));
    CueEffects(s.audioReady, page, SunEdge(s, sun)) + CueEffects(s.audioReady, page, MoonEdge(s, moon))
  }

  /** The part of a tick after the theme update, shared by both readings of the theme check. */
  function EdgesAndMotion(s: SkyState, themed: Outcome, sun: Position, moon: Position, page: Page): (r: Outcome)
    ensures r.state.(prevSunVisible := themed.state.prevSunVisible, prevMoonVisible := themed.state.prevMoonVisible)
      == themed.state
    ensures r.state.prevSunVisible == (sun.altitude > 0.0)
    ensures r.state.prevMoonVisible == (moon.altitude > 0.0)
  {
    Outcome(
      themed.state.(prevSunVisible := sun.altitude > 0.0, prevMoonVisible := moon.altitude > 0.0),
      themed.effects + Cues(s, sun, moon, page) + Motion(sun, moon))
  }

  /**
    One tick of `moveBodies` on the positions of this tick: theme update,
    rise/set cues from the retained visibility flags, then body tweens.
    What it plays and shows is stated by the lemmas that follow.
   */
  function Tick(s: SkyState, sun: Position, moon: Position, page: Page): (r: Outcome)
    ensures r.state.theme == Classify(sun.altitude)
    ensures Classify(sun.altitude) == s.theme ==> r.state.greeting == s.greeting
    ensures Classify(sun.altitude) != s.theme ==> r.state.greeting == Some(Classify(sun.altitude))
    ensures r.state.prevSunVisible == (sun.altitude > 0.0)
    ensures r.state.prevMoonVisible == (moon.altitude > 0.0)
    ensures r.state.audioReady == s.audioReady
  {
    EdgesAndMotion(s, UpdateTheme(s, sun.altitude, page), sun, moon, page)
  }

  /**
    After a tick the message is unchanged when the theme holds, and is the
    new theme's greeting when it changes; the greetings being distinct, the
    message names the theme it was set for.
   */
  lemma TickMessage(s: SkyState, sun: Position, moon: Position, page: Page)
    ensures var m := Message(Tick(s, sun, moon, page).state);
      && (Classify(sun.altitude) == s.theme ==> m == Message(s))
      && (Classify(sun.altitude) != s.theme ==> m == Greeting(Classify(sun.altitude)))
      && (forall t :: Classify(sun.altitude) != s.theme && m == Greeting(t) ==> t == Classify(sun.altitude))
  {
    if Classify(sun.altitude) != s.theme {
      MessageNames(Tick(s, sun, moon, page).state, Classify(sun.altitude));
    }
  }

  /** A state that holds `n`'s greeting shows `n`'s message, and no other theme's. */
  lemma MessageNames(st: SkyState, n: Theme)
    requires st.greeting == Some(n)
    ensures Message(st) == Greeting(n)
    ensures forall t :: Message(st) == Greeting(t) ==> t == n
  {
    forall t | Message(st) == Greeting(t) ensures t == n {
      GreetingInjective(t, n);
    }
  }

  /** The three parts of a tick's effects: crossfade, cues, body tweens. */
  lemma TickParts(s: SkyState, sun: Position, moon: Position, page: Page)
    ensures Tick(s, sun, moon, page).effects ==
      UpdateTheme(s, sun.altitude, page).effects + Cues(s, sun, moon, page) + Motion(sun, moon)
  {
  }

  /** An element missing from the outer parts of a concatenation is in it exactly when it is in the middle. */
  lemma Middle(a: seq<Effect>, b: seq<Effect>, c: seq<Effect>, e: Effect)
    requires e !in a && e !in c
    ensures e in a + b + c <==> e in b
  {
  }

  /** An element missing from the last two parts of a concatenation is in it exactly when it is in the first. */
  lemma Leading(a: seq<Effect>, b: seq<Effect>, c: seq<Effect>, e: Effect)
    requires e !in b && e !in c
    ensures e in a + b + c <==> e in a
  {
  }

  /** An effect of a tick comes from the crossfade, the cues or the body tweens. */
  lemma TickMember(s: SkyState, sun: Position, moon: Position, page: Page, e: Effect)
    ensures e in Tick(s, sun, moon, page).effects <==>
      e in UpdateTheme(s, sun.altitude, page).effects || e in Cues(s, sun, moon, page) || e in Motion(sun, moon)
  {
    TickParts(s, sun, moon, page);
  }

  /** A cue's `Play` comes from the cue part of the tick and nowhere else. */
  lemma TickPlaysCue(s: SkyState, sun: Position, moon: Position, page: Page, c: Cue)
    ensures Play(Sfx(c)) in Tick(s, sun, moon, page).effects <==> Play(Sfx(c)) in Cues(s, sun, moon, page)
  {
    var e := Play(Sfx(c));
    var themed, moved := UpdateTheme(s, sun.altitude, page).effects, Motion(sun, moon);
    assert !OnAmbient(e) && !OnBody(e);
    assert e !in themed && e !in moved;
    TickParts(s, sun, moon, page);
    Middle(themed, Cues(s, sun, moon, page), moved, e);
  }

  /** An ambient loop's `Play` comes from the theme update and nowhere else. */
  lemma TickPlaysAmbient(s: SkyState, sun: Position, moon: Position, page: Page, t: Theme)
    ensures Play(Ambient(t)) in Tick(s, sun, moon, page).effects
      <==> Play(Ambient(t)) in UpdateTheme(s, sun.altitude, page).effects
  {
    var e := Play(Ambient(t));
    assert !OnCue(e) && !OnBody(e);
    TickMember(s, sun, moon, page, e);
  }

  /** An opacity tween comes from the body motion and nowhere else. */
  lemma TickShows(s: SkyState, sun: Position, moon: Position, page: Page, b: Body, o: int)
    ensures SetOpacity(b, o) in Tick(s, sun, moon, page).effects <==> SetOpacity(b, o) in Motion(sun, moon)
  {
    var e := SetOpacity(b, o);
    assert !OnAmbient(e) && !OnCue(e);
    TickMember(s, sun, moon, page, e);
  }

  /**
    A cue is played exactly on a visibility edge of its body, and only once
    audio is unlocked and while the page is visible and focused.
   */
  lemma TickCues(s: SkyState, sun: Position, moon: Position, page: Page)
    ensures var effs := Tick(s, sun, moon, page).effects;
      && (Play(Sfx(SunRise)) in effs <==>
        sun.altitude > 0.0 && !s.prevSunVisible && s.audioReady && Foreground(page))
      && (Play(Sfx(SunSet)) in effs <==>
        sun.altitude <= 0.0 && s.prevSunVisible && s.audioReady && Foreground(page))
      && (Play(Sfx(MoonRise)) in effs <==>
        moon.altitude > 0.0 && !s.prevMoonVisible && s.audioReady && Foreground(page))
      && (Play(Sfx(MoonSet)) in effs <==>
        moon.altitude <= 0.0 && s.prevMoonVisible && s.audioReady && Foreground(page))
  {
    TickPlaysCue(s, sun, moon, page, SunRise);
    TickPlaysCue(s, sun, moon, page, SunSet);
    TickPlaysCue(s, sun, moon, page, MoonRise);
    TickPlaysCue(s, sun, moon, page, MoonSet);
  }

  /**
    A tick starts an ambient loop only when the sun's band names a theme
    other than the held one and the page is in the foreground; the loop it
    starts is the new theme's.
   */
  lemma TickCrossfade(s: SkyState, sun: Position, moon: Position, page: Page, t: Theme)
    ensures Play(Ambient(t)) in Tick(s, sun, moon, page).effects <==>
      t == Classify(sun.altitude) && t != s.theme && Foreground(page)
  {
    TickPlaysAmbient(s, sun, moon, page, t);
  }

  /** Each body is faded in exactly when it is above the horizon, and out otherwise. */
  lemma TickOpacity(s: SkyState, sun: Position, moon: Position, page: Page)
    ensures var effs := Tick(s, sun, moon, page).effects;
      && (SetOpacity(Sun, 1) in effs <==> sun.altitude > 0.0)
      && (SetOpacity(Sun, 0) in effs <==> sun.altitude <= 0.0)
      && (SetOpacity(Moon, 1) in effs <==> moon.altitude > 0.0)
      && (SetOpacity(Moon, 0) in effs <==> moon.altitude <= 0.0)
  {
    TickShows(s, sun, moon, page, Sun, 1);
    TickShows(s, sun, moon, page, Sun, 0);
    TickShows(s, sun, moon, page, Moon, 1);
    TickShows(s, sun, moon, page, Moon, 0);
  }

  /** While the page is hidden or unfocused a tick plays nothing at all, not even on an edge. */
  lemma TickSilentInBackground(s: SkyState, sun: Position, moon: Position, page: Page)
    requires !Foreground(page)
    ensures forall e :: e in Tick(s, sun, moon, page).effects ==> !e.Play?
  {
    TickParts(s, sun, moon, page);
  }

  /**
    A whole `moveBodies` call, corrected: positions from the ephemeris, or
    the corrected time-of-day fallback when it throws, then one tick on them.
   */
  function MoveBodies(s: SkyState, e: Ephemeris, c: ClockTime, sine: real -> real, page: Page): (r: Outcome)
    requires BoundedSine(sine)
    ensures e.Computed? ==> r.state.theme == Classify(e.sun.altitude)
    ensures e.Computed? ==> r.state.prevSunVisible == (e.sun.altitude > 0.0)
    ensures e.Computed? ==> r.state.prevMoonVisible == (e.moon.altitude > 0.0)
    ensures e.Threw? ==> r.state.theme == Classify(SimulatedSun(c, sine).altitude)
    ensures r.state.audioReady == s.audioReady
  {
    var p := ComputePositions(e, c, sine);
    Tick(s, p.sun, p.moon, page)
  }

  /**
    With the ephemeris failing, the engine takes the sun to be up exactly
    from 06:00 to 18:00, holds the night theme exactly outside that window,
    and takes the moon to be up exactly from 18:00 to 06:00.
   */
  lemma FallbackDayAndNight(s: SkyState, c: ClockTime, sine: real -> real, page: Page)
    requires BoundedSine(sine) && sine(0.0) == 0.0 && PositiveOnArc(sine)
    ensures var r := MoveBodies(s, Threw, c, sine, page);
      && (r.state.prevSunVisible <==> 6.0 < HourOfDay(c) < 18.0)
      && (r.state.theme == Night <==> !(6.0 < HourOfDay(c) < 18.0))
      && (r.state.prevMoonVisible <==> HourOfDay(c) < 6.0 || 18.0 < HourOfDay(c))
  {
    SimulatedSunVisibility(c, sine);
    SimulatedMoonVisibility(c, sine);
  }

  /**
    With the program's sine, a fallback tick as written from 18:00 on counts
    the sun as up and holds the evening theme, where the corrected fallback
    counts it as down and holds night.
   */
  lemma FallbackEveningAsWritten(s: SkyState, c: ClockTime, sine: real -> real, page: Page)
    requires ProgramSine(sine)
    requires 18.0 <= HourOfDay(c)
    ensures var r := Tick(s, SimulatedSunAsWritten(c, sine), SimulatedMoon(c, sine), page);
      r.state.prevSunVisible && r.state.theme == Evening
    ensures var r := MoveBodies(s, Threw, c, sine, page);
      !r.state.prevSunVisible && r.state.theme == Night
  {
    SimulatedSunsDifferFromDusk(c, sine);
  }

  /** An ambient loop is neither a cue nor a body tween. */
  lemma AmbientOutsideCuesAndMotion(s: SkyState, sun: Position, moon: Position, page: Page, th: Theme)
    ensures Play(Ambient(th)) !in Cues(s, sun, moon, page)
    ensures Play(Ambient(th)) !in Motion(sun, moon)
  {
    assert !OnCue(Play(Ambient(th))) && !OnBody(Play(Ambient(th)));
  }

  /** The cues and tweens added after a theme update start no ambient loop. */
  lemma EdgesAndMotionAmbient(s: SkyState, themed: Outcome, sun: Position, moon: Position, page: Page)
    ensures forall th ::
      (Play(Ambient(th)) in EdgesAndMotion(s, themed, sun, moon, page).effects <==> Play(Ambient(th)) in themed.effects)
  {
    forall th
      ensures Play(Ambient(th)) in EdgesAndMotion(s, themed, sun, moon, page).effects
        <==> Play(Ambient(th)) in themed.effects
    {
      AmbientOutsideCuesAndMotion(s, sun, moon, page, th);
      Leading(themed.effects, Cues(s, sun, moon, page), Motion(sun, moon), Play(Ambient(th)));
    }
  }

  /** `moveBodies` as written, with the theme check of `UpdateThemeAsWritten`. */
  function TickAsWritten(s: SkyState, sun: Position, moon: Position, page: Page): (r: Outcome)
    ensures Classify(sun.altitude) == Morning ==> r.state.theme == s.theme && r.state.greeting == s.greeting
    ensures Classify(sun.altitude) != Morning ==>
      r.state.theme == Classify(sun.altitude) && r.state.greeting == Some(Classify(sun.altitude))
    ensures forall th :: Play(Ambient(th)) in r.effects <==>
      th == Classify(sun.altitude) && th != Morning && Foreground(page)
    ensures r.state.prevSunVisible == (sun.altitude > 0.0)
    ensures r.state.prevMoonVisible == (moon.altitude > 0.0)
    ensures r.state.audioReady == s.audioReady
  {
    var themed := UpdateThemeAsWritten(s, sun.altitude, page);
    EdgesAndMotionAmbient(s, themed, sun, moon, page);
    EdgesAndMotion(s, themed, sun, moon, page)
  }

  /**
    A tick repeated on unchanged positions changes no state, plays no cue and
    requests no crossfade: only the body tweens are issued again.
   */
  lemma TickIdempotent(s: SkyState, sun: Position, moon: Position, page: Page)
    ensures var r1 := Tick(s, sun, moon, page);
      var r2 := Tick(r1.state, sun, moon, page);
      r2.state == r1.state && r2.effects == Motion(sun, moon)
  {
  }

  /**
    A cue suppressed because the page was in the background is dropped: the
    next tick on the same positions, back in the foreground, does not play it.
   */
  lemma SuppressedCueIsDropped(s: SkyState, sun: Position, moon: Position, hidden: Page, shown: Page)
    requires !Foreground(hidden) && Foreground(shown)
    ensures var r1 := Tick(s, sun, moon, hidden);
      forall c :: Play(Sfx(c)) !in Tick(r1.state, sun, moon, shown).effects
  {
  }

  /** The stale comparison crossfades to the night loop again on every night tick. */
  lemma StaleThemeRefades(s: SkyState, sun: Position, moon: Position, page: Page)
    requires s.theme == Night && sun.altitude == -0.1 && Foreground(page)
    ensures var r1 := TickAsWritten(s, sun, moon, page);
      Play(Ambient(Night)) in TickAsWritten(r1.state, sun, moon, page).effects
    ensures var r1 := Tick(s, sun, moon, page);
      Play(Ambient(Night)) !in Tick(r1.state, sun, moon, page).effects
  {
  }

  /** The stale comparison never moves a held night or evening theme back to morning. */
  lemma StaleThemeSkipsMorning(s: SkyState, sun: Position, moon: Position, page: Page)
    requires s.theme == Night && sun.altitude == 0.3
    ensures TickAsWritten(s, sun, moon, page).state.theme == Night
    ensures Tick(s, sun, moon, page).state.theme == Morning
  {
  }

  /** The cues a list of effects plays. */
  function CuesPlayed(effs: seq<Effect>): (r: set<Cue>)
    ensures forall c :: c in r <==> Play(Sfx(c)) in effs
  {
    var r :=
      (if Play(Sfx(SunRise)) in effs then {SunRise} else {})
      + (if Play(Sfx(SunSet)) in effs then {SunSet} else {})
      + (if Play(Sfx(MoonRise)) in effs then {MoonRise} else {})
      + (if Play(Sfx(MoonSet)) in effs then {MoonSet} else {});
    assert forall c :: c in r <==> Play(Sfx(c)) in effs by {
      forall c: Cue ensures c in r <==> Play(Sfx(c)) in effs {
        assert c == SunRise || c == SunSet || c == MoonRise || c == MoonSet;
      }
    }
    r
  }

  /** With the moon staying down, an unlocked foreground tick plays at most the sun's edge cue. */
  lemma SunOnlyCues(s: SkyState, sun: Position, moon: Position, page: Page)
    requires s.audioReady && Foreground(page)
    requires moon.altitude <= 0.0 && !s.prevMoonVisible
    ensures CuesPlayed(Tick(s, sun, moon, page).effects) ==
      if sun.altitude > 0.0 && !s.prevSunVisible then {SunRise}
      else if sun.altitude <= 0.0 && s.prevSunVisible then {SunSet}
      else {}
  {
    TickCues(s, sun, moon, page);
  }

  /**
    Sun altitudes -0.1, 0.1, 0.1, -0.1 on four foreground ticks after unlock
    (moon below the horizon throughout) play nothing, the sunrise cue,
    nothing, then the sunset cue.
   */
  lemma RiseSetExample()
    ensures var p, moon := Page(false, true), Position(0.0, -0.1);
      var r1 := Tick(Initial.(audioReady := true), Position(0.0, -0.1), moon, p);
      var r2 := Tick(r1.state, Position(0.0, 0.1), moon, p);
      var r3 := Tick(r2.state, Position(0.0, 0.1), moon, p);
      var r4 := Tick(r3.state, Position(0.0, -0.1), moon, p);
      [CuesPlayed(r1.effects), CuesPlayed(r2.effects), CuesPlayed(r3.effects), CuesPlayed(r4.effects)]
        == [{}, {SunRise}, {}, {SunSet}]
  {
    var p, moon := Page(false, true), Position(0.0, -0.1);
    var s0 := Initial.(audioReady := true);
    var r1 := Tick(s0, Position(0.0, -0.1), moon, p);
    var r2 := Tick(r1.state, Position(0.0, 0.1), moon, p);
    var r3 := Tick(r2.state, Position(0.0, 0.1), moon, p);
    var r4 := Tick(r3.state, Position(0.0, -0.1), moon, p);
    SunOnlyCues(s0, Position(0.0, -0.1), moon, p);
    SunOnlyCues(r1.state, Position(0.0, 0.1), moon, p);
    SunOnlyCues(r2.state, Position(0.0, 0.1), moon, p);
    SunOnlyCues(r3.state, Position(0.0, -0.1), moon, p);
  }

  // ---------------------------------------------------------------------------
  // Page events

  /** The events the page listens for besides the tick. */
  datatype PageEvent =
    | Gesture          // first click, touch, key, mouse or pointer press
    | VisibilityChange // `visibilitychange` on the document
    | Blur             // `blur` on the window
    | Focus            // `focus` on the window

  /** `playAmbientIfAllowed` on the held theme. */
  function Resume(s: SkyState, page: Page): (r: seq<Effect>)
    ensures forall t :: Play(t) in r <==> s.audioReady && Foreground(page) && t == Ambient(s.theme)
    ensures forall i :: 0 <= i < |r| ==> OnAmbient(r[i])
    ensures forall e, t :: e in r && Raises(e, t) ==> t == Ambient(s.theme) && s.audioReady && Foreground(page)
  {
    PlayAmbientIfAllowed(s.audioReady, page, s.theme)
  }

  /** `playAmbientIfAllowed` as written: it resumes the first render's theme, morning. */
  function ResumeAsWritten(s: SkyState, page: Page): (r: seq<Effect>)
    ensures forall t :: Play(t) in r <==> s.audioReady && Foreground(page) && t == Ambient(Morning)
  {
    PlayAmbientIfAllowed(s.audioReady, page, Morning)
  }

  /** The stale resume plays the morning loop even when the held theme is night. */
  lemma StaleResumePlaysMorning(s: SkyState, page: Page)
    requires s.theme == Night && s.audioReady && Foreground(page)
    ensures Play(Ambient(Morning)) in ResumeAsWritten(s, page)
    ensures Play(Ambient(Night)) !in ResumeAsWritten(s, page)
    ensures Play(Ambient(Night)) in Resume(s, page)
  {
  }

  /** Unmutes each listed theme's ambient track. */
  function UnmuteEach(themes: seq<Theme>): (r: seq<Effect>)
    ensures |r| == |themes|
    ensures forall i :: 0 <= i < |r| ==> r[i] == Unmute(Ambient(themes[i]))
    ensures forall e, t :: e in r ==> !Raises(e, t)
  {
    if themes == [] then [] else [Unmute(Ambient(themes[0]))] + UnmuteEach(themes[1..])
  }

  /** After `UnmuteEach(themes)` the listed ambient tracks are unmuted and nothing else changed. */
  lemma {:induction false} SettleUnmuteEach(m: Mix, themes: seq<Theme>, t: Track)
    ensures Lookup(Settle(m, UnmuteEach(themes)), t) ==
      if t.Ambient? && t.theme in themes then Lookup(m, t).(muted := false) else Lookup(m, t)
    decreases |themes|
  {
    if themes != [] {
      var e := Unmute(Ambient(themes[0]));
      var rest := UnmuteEach(themes[1..]);
      assert UnmuteEach(themes) == [e] + rest;
      assert ([e] + rest)[1..] == rest;
      assert Settle(m, UnmuteEach(themes)) == Settle(Step(m, e), rest);
      SettleUnmuteEach(Step(m, e), themes[1..], t);
      StepLookup(m, e, t);
      assert t.Ambient? && t.theme in themes <==>
        (t == Ambient(themes[0]) || (t.Ambient? && t.theme in themes[1..]));
    }
  }

  /**
    `unlock`: the first gesture marks audio ready, unmutes every ambient loop
    and resumes the held theme's loop if the page allows; any later call does
    nothing.
   */
  function Unlock(s: SkyState, page: Page): (r: Outcome)
    ensures r.state == s.(audioReady := true)
    ensures s.audioReady ==> r.effects == []
    ensures !s.audioReady ==> forall t :: Unmute(Ambient(t)) in r.effects
    ensures forall t :: Play(t) in r.effects <==> !s.audioReady && Foreground(page) && t == Ambient(s.theme)
    ensures forall e, t :: e in r.effects && Raises(e, t) ==> t == Ambient(s.theme) && !s.audioReady && Foreground(page)
  {
    if s.audioReady then Outcome(s, [])
    else
      var s' := s.(audioReady := true);
      UnlockEffects(s', page);
      Outcome(s', UnmuteEach(AllThemes) + Resume(s', page))
  }

  /** What a first unlock requests: every loop unmuted, then the held loop resumed if allowed. */
  lemma UnlockEffects(s: SkyState, page: Page)
    requires s.audioReady
    ensures var effs := UnmuteEach(AllThemes) + Resume(s, page);
      && (forall t :: Unmute(Ambient(t)) in effs)
      && (forall t :: Play(t) in effs <==> Foreground(page) && t == Ambient(s.theme))
      && (forall e, t :: e in effs && Raises(e, t) ==> t == Ambient(s.theme) && Foreground(page))
  {
    var unmutes := UnmuteEach(AllThemes);
    forall t ensures Unmute(Ambient(t)) in unmutes {
      ThemeListed(t);
      var i :| 0 <= i < |AllThemes| && AllThemes[i] == t;
      assert unmutes[i] == Unmute(Ambient(t));
    }
    assert forall t :: Play(t) !in unmutes;
  }

  /** Unlocking is one-shot: a second gesture changes nothing and requests nothing. */
  lemma UnlockOneShot(s: SkyState, p1: Page, p2: Page)
    ensures Unlock(s, p1).state.audioReady
    ensures Unlock(Unlock(s, p1).state, p2) == Outcome(Unlock(s, p1).state, [])
  {
  }

  /** Unmuting a list of loops and then resuming one leaves exactly the resumed loop audible. */
  lemma UnmuteThenResume(themes: seq<Theme>, held: Theme, page: Page, t: Theme)
    requires Foreground(page) && t in themes
    ensures Audible(Settle(map[], UnmuteEach(themes) + PlayAmbientIfAllowed(true, page, held)), Ambient(t))
      <==> t == held
  {
    var a := UnmuteEach(themes);
    var b := PlayAmbientIfAllowed(true, page, held);
    var m1 := Settle(map[], a);
    SettleConcat(map[], a, b);
    assert Settle(map[], a + b) == Settle(m1, b);
    SettleUnmuteEach(map[], themes, Ambient(t));
    if t == held {
      PlayAmbientSettles(m1, page, t);
      assert Audible(Settle(m1, b), Ambient(t));
    } else {
      SettleUntouched(m1, b, Ambient(t));
      assert !Lookup(m1, Ambient(t)).playing;
      assert !Audible(Settle(m1, b), Ambient(t));
    }
  }

  /**
    Unlocking a freshly loaded page in the foreground leaves exactly one
    ambient loop audible: the held theme's.
   */
  lemma UnlockLeavesHeldThemeAudible(s: SkyState, page: Page, t: Theme)
    requires !s.audioReady && Foreground(page)
    ensures Audible(Settle(map[], Unlock(s, page).effects), Ambient(t)) <==> t == s.theme
  {
    assert Unlock(s, page).effects
      == UnmuteEach(AllThemes) + PlayAmbientIfAllowed(true, page, s.theme);
    ThemeListed(t);
    UnmuteThenResume(AllThemes, s.theme, page, t);
  }

  /**
    The listeners: a gesture unlocks; hiding the page or losing focus pauses
    every track; showing or focusing the page resumes the held theme's loop
    if audio is unlocked. Only a gesture changes the state.
   */
  function HandleEvent(s: SkyState, page: Page, ev: PageEvent): (r: Outcome)
    ensures r.state.audioReady == (s.audioReady || ev == Gesture)
    ensures r.state.(audioReady := s.audioReady) == s
    ensures ev == Blur || (ev == VisibilityChange && page.hidden) ==>
      forall t :: Pause(t) in r.effects
    ensures forall t :: Play(t) in r.effects ==>
      t == Ambient(s.theme) && Foreground(page) && r.state.audioReady
    ensures ev == Focus || (ev == VisibilityChange && !page.hidden) ==>
      forall t :: Play(t) in r.effects <==> s.audioReady && Foreground(page) && t == Ambient(s.theme)
    ensures ev == Blur || (ev == VisibilityChange && page.hidden) ==> r.effects == PauseAll()
    ensures forall e, t :: e in r.effects && Raises(e, t) ==>
      t == Ambient(s.theme) && Foreground(page) && r.state.audioReady
    ensures forall c :: Play(Sfx(c)) !in r.effects
  {
    match ev
    case Gesture => Unlock(s, page)
    case VisibilityChange =>
      if page.hidden then Outcome(s, PauseAll()) else Outcome(s, Resume(s, page))
    case Blur => Outcome(s, PauseAll())
    case Focus => Outcome(s, Resume(s, page))
  }

  // ---------------------------------------------------------------------------
  // A session: ticks and page events in the order the event loop delivers them

  /** One input: a tick on this tick's positions, or a page event. */
  datatype Input =
    | TickAt(sun: Position, moon: Position, page: Page)
    | EventAt(event: PageEvent, page: Page)

  /** One input: a tick on its positions, or a page event. */
  function Apply(s: SkyState, i: Input): Outcome
  {
    match i
    case TickAt(sun, moon, page) => Tick(s, sun, moon, page)
    case EventAt(ev, page) => HandleEvent(s, page, ev)
  }

  /** The state and the effects after a sequence of inputs, in order. */
  function Session(s: SkyState, inputs: seq<Input>): (r: Outcome)
    decreases |inputs|
  {
    if inputs == [] then Outcome(s, [])
    else
      var before := Session(s, inputs[..|inputs| - 1]);
      var last := Apply(before.state, inputs[|inputs| - 1]);
      Outcome(last.state, before.effects + last.effects)
  }

  /** True for a page event that is a user gesture. */
  predicate IsGesture(i: Input)
  {
    i.EventAt? && i.event == Gesture
  }

  /** True when some input of the session is a gesture. */
  predicate HasGesture(inputs: seq<Input>)
  {
    exists k :: 0 <= k < |inputs| && IsGesture(inputs[k])
  }

  /** Only a gesture changes audio readiness, and only from false to true. */
  lemma ApplyReady(s: SkyState, i: Input)
    ensures Apply(s, i).state.audioReady == (s.audioReady || IsGesture(i))
  {
  }

  /** A non-empty session is its last input applied after the rest. */
  lemma SessionLast(s: SkyState, inputs: seq<Input>)
    requires inputs != []
    ensures var before := Session(s, inputs[..|inputs| - 1]);
      var last := Apply(before.state, inputs[|inputs| - 1]);
      Session(s, inputs) == Outcome(last.state, before.effects + last.effects)
  {
  }

  /** A session holds a gesture iff its prefix does or its last input is one. */
  lemma HasGestureLast(inputs: seq<Input>)
    requires inputs != []
    ensures HasGesture(inputs)
      <==> HasGesture(inputs[..|inputs| - 1]) || IsGesture(inputs[|inputs| - 1])
  {
    var init := inputs[..|inputs| - 1];
    if HasGesture(init) {
      var k :| 0 <= k < |init| && IsGesture(init[k]);
      assert inputs[k] == init[k];
    }
    if HasGesture(inputs) && !IsGesture(inputs[|inputs| - 1]) {
      var k :| 0 <= k < |inputs| && IsGesture(inputs[k]);
      assert init[k] == inputs[k];
    }
  }

  /**
    Audio readiness never resets: after a session it is set exactly when it
    was set before or some input was a gesture.
   */
  lemma {:induction false} ReadyOnlyByGesture(s: SkyState, inputs: seq<Input>)
    ensures Session(s, inputs).state.audioReady <==> s.audioReady || HasGesture(inputs)
    decreases |inputs|
  {
    if inputs != [] {
      var init, last := inputs[..|inputs| - 1], inputs[|inputs| - 1];
      ReadyOnlyByGesture(s, init);
      SessionLast(s, inputs);
      ApplyReady(Session(s, init).state, last);
      HasGestureLast(inputs);
    }
  }

  /** Number of times `e` occurs in `effs`. */
  function Count(effs: seq<Effect>, e: Effect): nat
    decreases |effs|
  {
    if effs == [] then 0 else (if effs[0] == e then 1 else 0) + Count(effs[1..], e)
  }

  /** 1 for a set flag, 0 for a clear one, so a flag's change can be compared with cue counts. */
  function Indicator(b: bool): int
  {
    if b then 1 else 0
  }

  /** The count in a three-element list, element by element. */
  lemma CountThree(a: Effect, b: Effect, c: Effect, e: Effect)
    ensures Count([a, b, c], e) == Indicator(a == e) + Indicator(b == e) + Indicator(c == e)
  {
    assert [a, b, c][1..] == [b, c];
    assert [b, c][1..] == [c];
    assert [c][1..] == [];
    assert Count([c], e) == Indicator(c == e);
    assert Count([b, c], e) == Indicator(b == e) + Count([c], e);
  }

  /** Counts add up over a concatenation. */
  lemma {:induction false} CountConcat(a: seq<Effect>, b: seq<Effect>, e: Effect)
    ensures Count(a + b, e) == Count(a, e) + Count(b, e)
    decreases |a|
  {
    if a == [] {
      assert a + b == b;
    } else {
      assert (a + b)[0] == a[0];
      assert (a + b)[1..] == a[1..] + b;
      CountConcat(a[1..], b, e);
    }
  }

  /** An effect that does not occur has count 0. */
  lemma {:induction false} CountAbsent(effs: seq<Effect>, e: Effect)
    requires e !in effs
    ensures Count(effs, e) == 0
    decreases |effs|
  {
    if effs != [] {
      assert effs[0] != e;
      assert forall k :: 0 <= k < |effs[1..]| ==> effs[1..][k] == effs[k + 1];
      CountAbsent(effs[1..], e);
    }
  }

  /** A sun edge and a moon edge never name the same cue, so together they play each cue at most once. */
  lemma TwoEdgesCount(ready: bool, page: Page, sunEdge: Option<Cue>, moonEdge: Option<Cue>, c: Cue)
    requires sunEdge == None || sunEdge == Some(SunRise) || sunEdge == Some(SunSet)
    requires moonEdge == None || moonEdge == Some(MoonRise) || moonEdge == Some(MoonSet)
    ensures var r := CueEffects(ready, page, sunEdge) + CueEffects(ready, page, moonEdge);
      Count(r, Play(Sfx(c))) == if Play(Sfx(c)) in r then 1 else 0
  {
    var a := CueEffects(ready, page, sunEdge);
    var b := CueEffects(ready, page, moonEdge);
    CountConcat(a, b, Play(Sfx(c)));
    CueEffectsCount(ready, page, sunEdge, c);
    CueEffectsCount(ready, page, moonEdge, c);
  }

  /** A cue's effects hold at most one `Play`, present exactly when the cue fires. */
  lemma CueEffectsCount(ready: bool, page: Page, edge: Option<Cue>, c: Cue)
    ensures Count(CueEffects(ready, page, edge), Play(Sfx(c))) ==
      if edge == Some(c) && ready && Foreground(page) then 1 else 0
  {
    var r := CueEffects(ready, page, edge);
    if r != [] {
      var d := edge.value;
      assert r == [SetVolume(Sfx(d), Volume), Rewind(Sfx(d)), Play(Sfx(d))];
      CountThree(SetVolume(Sfx(d), Volume), Rewind(Sfx(d)), Play(Sfx(d)), Play(Sfx(c)));
    }
  }

  /** An effect absent from both ends of a list occurs there as often as in the middle part. */
  lemma CountMiddle(all: seq<Effect>, a: seq<Effect>, b: seq<Effect>, c: seq<Effect>, x: Effect)
    requires all == a + b + c
    requires x !in a && x !in c
    ensures Count(all, x) == Count(b, x)
    ensures x in all <==> x in b
  {
    CountConcat(a + b, c, x);
    CountConcat(a, b, x);
    CountAbsent(a, x);
    CountAbsent(c, x);
  }

  /** A tick's cue part is the sun's edge cue followed by the moon's. */
  lemma CuesSplit(s: SkyState, sun: Position, moon: Position, page: Page)
    ensures Cues(s, sun, moon, page)
      == CueEffects(s.audioReady, page, SunEdge(s, sun)) + CueEffects(s.audioReady, page, MoonEdge(s, moon))
  {
  }

  /** The cues of a tick play each cue at most once. */
  lemma CuesCount(s: SkyState, sun: Position, moon: Position, page: Page, c: Cue)
    ensures Count(Cues(s, sun, moon, page), Play(Sfx(c))) ==
      if Play(Sfx(c)) in Cues(s, sun, moon, page) then 1 else 0
  {
    CuesSplit(s, sun, moon, page);
    TwoEdgesCount(s.audioReady, page, SunEdge(s, sun), MoonEdge(s, moon), c);
  }

  /** A cue is neither an ambient effect of the theme update nor a body tween. */
  lemma CueOutsideThemeAndMotion(s: SkyState, sun: Position, moon: Position, page: Page, c: Cue)
    ensures Play(Sfx(c)) !in UpdateTheme(s, sun.altitude, page).effects
    ensures Play(Sfx(c)) !in Motion(sun, moon)
  {
    assert !OnAmbient(Play(Sfx(c))) && !OnBody(Play(Sfx(c)));
  }

  /** How often a tick plays each cue: once on its edge when permitted, never otherwise. */
  lemma TickCueCount(s: SkyState, sun: Position, moon: Position, page: Page, c: Cue)
    ensures Count(Tick(s, sun, moon, page).effects, Play(Sfx(c))) ==
      if Play(Sfx(c)) in Tick(s, sun, moon, page).effects then 1 else 0
  {
    CueOutsideThemeAndMotion(s, sun, moon, page, c);
    CuesCount(s, sun, moon, page, c);
    TickParts(s, sun, moon, page);
    CountMiddle(Tick(s, sun, moon, page).effects, UpdateTheme(s, sun.altitude, page).effects,
      Cues(s, sun, moon, page), Motion(sun, moon), Play(Sfx(c)));
  }

  /** Rise/set cue counts of a single input, once audio is unlocked and the page is in the foreground. */
  lemma ApplyCueCounts(s: SkyState, i: Input)
    requires s.audioReady
    requires i.TickAt? ==> Foreground(i.page)
    ensures var r := Apply(s, i);
      && Count(r.effects, Play(Sfx(SunRise))) - Count(r.effects, Play(Sfx(SunSet)))
        == Indicator(r.state.prevSunVisible) - Indicator(s.prevSunVisible)
      && Count(r.effects, Play(Sfx(MoonRise))) - Count(r.effects, Play(Sfx(MoonSet)))
        == Indicator(r.state.prevMoonVisible) - Indicator(s.prevMoonVisible)
  {
    match i
    case EventAt(ev, page) =>
      var r := HandleEvent(s, page, ev);
      forall c ensures Count(r.effects, Play(Sfx(c))) == 0 {
        CountAbsent(r.effects, Play(Sfx(c)));
      }
    case TickAt(sun, moon, page) =>
      TickCues(s, sun, moon, page);
      TickCueCount(s, sun, moon, page, SunRise);
      TickCueCount(s, sun, moon, page, SunSet);
      TickCueCount(s, sun, moon, page, MoonRise);
      TickCueCount(s, sun, moon, page, MoonSet);
  }

  /**
    Over any session that starts unlocked and ticks only in the foreground,
    rise and set cues balance: rises minus sets of each body equals the
    change of its visibility flag, so cues alternate and never repeat.
   */
  lemma {:induction false} CuesBalance(s: SkyState, inputs: seq<Input>)
    requires s.audioReady
    requires forall k :: 0 <= k < |inputs| && inputs[k].TickAt? ==> Foreground(inputs[k].page)
    ensures var r := Session(s, inputs);
      && Count(r.effects, Play(Sfx(SunRise))) - Count(r.effects, Play(Sfx(SunSet)))
        == Indicator(r.state.prevSunVisible) - Indicator(s.prevSunVisible)
      && Count(r.effects, Play(Sfx(MoonRise))) - Count(r.effects, Play(Sfx(MoonSet)))
        == Indicator(r.state.prevMoonVisible) - Indicator(s.prevMoonVisible)
    decreases |inputs|
  {
    if inputs != [] {
      var init, i := inputs[..|inputs| - 1], inputs[|inputs| - 1];
      var before := Session(s, init);
      var last := Apply(before.state, i);
      SessionLast(s, inputs);
      assert forall k :: 0 <= k < |init| ==> init[k] == inputs[k];
      CuesBalance(s, init);
      ReadyOnlyByGesture(s, init);
      ApplyCueCounts(before.state, i);
      CountConcat(before.effects, last.effects, Play(Sfx(SunRise)));
      CountConcat(before.effects, last.effects, Play(Sfx(SunSet)));
      CountConcat(before.effects, last.effects, Play(Sfx(MoonRise)));
      CountConcat(before.effects, last.effects, Play(Sfx(MoonSet)));
    }
  }

  // ---------------------------------------------------------------------------
  // One ambient loop at a time, over a whole session

  /** A blur, or a visibility change that hid the page: the inputs the source answers with `pauseAll`. */
  predicate Pauses(i: Input)
  {
    i.EventAt? && (i.event == Blur || (i.event == VisibilityChange && i.page.hidden))
  }

  /**
    Inputs in an order a browser can deliver them: the page leaves the
    foreground only through a blur or a visibility change that hides it.
   */
  predicate Delivered(inputs: seq<Input>)
  {
    forall k :: 0 < k < |inputs| && Foreground(inputs[k - 1].page) && !Foreground(inputs[k].page) ==>
      Pauses(inputs[k])
  }

  /** True when the session's last input found the page in the foreground. */
  predicate EndsForeground(inputs: seq<Input>)
  {
    inputs != [] && Foreground(inputs[|inputs| - 1].page)
  }

  /**
    The audio invariant of a session: no ambient loop but the held theme's
    is live, and outside the foreground no ambient loop is playing at all.
   */
  predicate Calm(m: Mix, s: SkyState, foreground: bool)
  {
    OthersQuiet(m, s.theme) && (!foreground ==> AmbientStopped(m))
  }

  /** No ambient loop but `held`'s is live. */
  predicate OthersQuiet(m: Mix, held: Theme)
  {
    forall t :: t != held ==> !Live(m, Ambient(t))
  }

  /** No ambient loop is playing. */
  predicate AmbientStopped(m: Mix)
  {
    forall t :: !Lookup(m, Ambient(t)).playing
  }

  /** A tick acts on the ambient loops only through its theme update. */
  lemma TickAmbient(m: Mix, s: SkyState, sun: Position, moon: Position, page: Page, t: Theme)
    ensures Lookup(Settle(m, Tick(s, sun, moon, page).effects), Ambient(t))
      == Lookup(Settle(m, UpdateTheme(s, sun.altitude, page).effects), Ambient(t))
  {
    var a := UpdateTheme(s, sun.altitude, page).effects;
    var b := Cues(s, sun, moon, page);
    var c := Motion(sun, moon);
    TickParts(s, sun, moon, page);
    SettleConcat(m, a + b, c);
    SettleConcat(m, a, b);
    forall i | 0 <= i < |b| ensures !Touches(b[i], Ambient(t)) {
      assert b[i] in b;
    }
    forall i | 0 <= i < |c| ensures !Touches(c[i], Ambient(t)) {
      assert c[i] in c;
    }
    SettleUntouched(Settle(m, a), b, Ambient(t));
    SettleUntouched(Settle(m, a + b), c, Ambient(t));
  }

  /** A tick keeps the audio invariant; it cannot take the page out of the foreground. */
  lemma TickCalm(m: Mix, s: SkyState, foreground: bool, sun: Position, moon: Position, page: Page)
    requires Calm(m, s, foreground)
    requires foreground ==> Foreground(page)
    ensures var r := Tick(s, sun, moon, page);
      Calm(Settle(m, r.effects), r.state, Foreground(page))
  {
    var r := Tick(s, sun, moon, page);
    var n := Classify(sun.altitude);
    var a := UpdateTheme(s, sun.altitude, page).effects;
    forall t ensures Lookup(Settle(m, r.effects), Ambient(t)) == Lookup(Settle(m, a), Ambient(t)) {
      TickAmbient(m, s, sun, moon, page, t);
    }
    if n != s.theme && Foreground(page) {
      assert a == FadeAmbient(page, n);
      forall t | t != n ensures !Live(Settle(m, r.effects), Ambient(t)) {
        FadeAmbientSettles(m, page, n, Ambient(t));
      }
    } else {
      assert a == [];
    }
  }

  /** A page event keeps the audio invariant, given that only a pausing event leaves the foreground. */
  lemma EventCalm(m: Mix, s: SkyState, foreground: bool, ev: PageEvent, page: Page)
    requires Calm(m, s, foreground)
    requires foreground && !Foreground(page) ==> Pauses(EventAt(ev, page))
    ensures var r := HandleEvent(s, page, ev);
      Calm(Settle(m, r.effects), r.state, Foreground(page))
  {
    var after := Settle(m, HandleEvent(s, page, ev).effects);
    forall t | t != s.theme ensures !Live(after, Ambient(t)) {
      EventKeepsQuiet(m, s, ev, page, t);
    }
    if !Foreground(page) {
      forall t ensures !Lookup(after, Ambient(t)).playing {
        EventEndsStopped(m, s, ev, page, Ambient(t));
      }
    }
  }

  /** Outside the foreground a track ends an event stopped: a pausing event stops it, any other leaves it stopped. */
  lemma EventEndsStopped(m: Mix, s: SkyState, ev: PageEvent, page: Page, t: Track)
    requires !Foreground(page)
    requires Pauses(EventAt(ev, page)) || !Lookup(m, t).playing
    ensures !Lookup(Settle(m, HandleEvent(s, page, ev).effects), t).playing
  {
    if Pauses(EventAt(ev, page)) {
      PauseEventStops(m, s, ev, page, t);
    } else {
      SettleKeepsStopped(m, HandleEvent(s, page, ev).effects, t);
    }
  }

  /** A pausing event stops every track. */
  lemma PauseEventStops(m: Mix, s: SkyState, ev: PageEvent, page: Page, t: Track)
    requires Pauses(EventAt(ev, page))
    ensures !Lookup(Settle(m, HandleEvent(s, page, ev).effects), t).playing
  {
    PauseAllSilences(m, t);
  }

  /** No event makes a loop other than the held theme's live. */
  lemma EventKeepsQuiet(m: Mix, s: SkyState, ev: PageEvent, page: Page, t: Theme)
    requires t != s.theme && !Live(m, Ambient(t))
    ensures !Live(Settle(m, HandleEvent(s, page, ev).effects), Ambient(t))
  {
    SettleKeepsQuiet(m, HandleEvent(s, page, ev).effects, Ambient(t));
  }

  /** Every input keeps the audio invariant, given that only a pausing event leaves the foreground. */
  lemma ApplyCalm(m: Mix, s: SkyState, foreground: bool, i: Input)
    requires Calm(m, s, foreground)
    requires foreground && !Foreground(i.page) ==> Pauses(i)
    ensures Calm(Settle(m, Apply(s, i).effects), Apply(s, i).state, Foreground(i.page))
  {
    match i
    case TickAt(sun, moon, page) => TickCalm(m, s, foreground, sun, moon, page);
    case EventAt(ev, page) => EventCalm(m, s, foreground, ev, page);
  }

  /** Appending one input to a calm run's effects keeps the audio invariant. */
  lemma CalmExtend(before: Outcome, foreground: bool, i: Input)
    requires Calm(Settle(map[], before.effects), before.state, foreground)
    requires foreground && !Foreground(i.page) ==> Pauses(i)
    ensures var last := Apply(before.state, i);
      Calm(Settle(map[], before.effects + last.effects), last.state, Foreground(i.page))
  {
    SettleConcat(map[], before.effects, Apply(before.state, i).effects);
    ApplyCalm(Settle(map[], before.effects), before.state, foreground, i);
  }

  /**
    A delivered sequence's prefix is delivered, and its last input leaves the
    foreground only by pausing.
   */
  lemma DeliveredPrefix(inputs: seq<Input>)
    requires inputs != [] && Delivered(inputs)
    ensures Delivered(inputs[..|inputs| - 1])
    ensures EndsForeground(inputs[..|inputs| - 1]) && !Foreground(inputs[|inputs| - 1].page) ==>
      Pauses(inputs[|inputs| - 1])
  {
    var init := inputs[..|inputs| - 1];
    assert forall k :: 0 <= k < |init| ==> init[k] == inputs[k];
    if EndsForeground(init) && !Foreground(inputs[|inputs| - 1].page) {
      assert Foreground(inputs[|inputs| - 2].page);
    }
  }

  /** A session stays calm through its last input when its prefix was calm and that input was delivered. */
  lemma SessionCalmStep(s: SkyState, inputs: seq<Input>)
    requires inputs != []
    requires var init := Session(s, inputs[..|inputs| - 1]);
      Calm(Settle(map[], init.effects), init.state, EndsForeground(inputs[..|inputs| - 1]))
    requires EndsForeground(inputs[..|inputs| - 1]) && !Foreground(inputs[|inputs| - 1].page) ==>
      Pauses(inputs[|inputs| - 1])
    ensures var r := Session(s, inputs);
      Calm(Settle(map[], r.effects), r.state, EndsForeground(inputs))
  {
    SessionLast(s, inputs);
    CalmExtend(Session(s, inputs[..|inputs| - 1]), EndsForeground(inputs[..|inputs| - 1]), inputs[|inputs| - 1]);
  }

  /** From a freshly loaded page, every delivered session keeps the audio invariant. */
  lemma {:induction false} SessionCalm(s: SkyState, inputs: seq<Input>)
    requires Delivered(inputs)
    ensures var r := Session(s, inputs);
      Calm(Settle(map[], r.effects), r.state, EndsForeground(inputs))
    decreases |inputs|
  {
    if inputs != [] {
      DeliveredPrefix(inputs);
      SessionCalm(s, inputs[..|inputs| - 1]);
      SessionCalmStep(s, inputs);
    }
  }

  /**
    However a delivered session of ticks and page events runs from a freshly
    loaded page, the only ambient loop that can be heard at its end is the
    held theme's, so at most one is heard.
   */
  lemma OnlyHeldThemeHeard(s: SkyState, inputs: seq<Input>, t: Theme)
    requires Delivered(inputs)
    ensures Audible(Settle(map[], Session(s, inputs).effects), Ambient(t)) ==> t == Session(s, inputs).state.theme
  {
    SessionCalm(s, inputs);
  }

  /**
    The interval loop: feeds the inputs to the engine one at a time,
    accumulating the effects it requests.
   */
  method RunSession(s: SkyState, inputs: seq<Input>) returns (final: SkyState, effects: seq<Effect>)
    ensures Outcome(final, effects) == Session(s, inputs)
    ensures final.audioReady <==> s.audioReady || HasGesture(inputs)
  {
    final, effects := s, [];
    var k := 0;
    while k < |inputs|
      invariant 0 <= k <= |inputs|
      invariant Outcome(final, effects) == Session(s, inputs[..k])
    {
      assert inputs[..k + 1][..k] == inputs[..k];
      var r := Apply(final, inputs[k]);
      final, effects := r.state, effects + r.effects;
      k := k + 1;
    }
    assert inputs[..k] == inputs;
    ReadyOnlyByGesture(s, inputs);
  }
}

=== FILE: fallback.dfy ===
/**
  Where the sun and moon are taken to be on each tick: the ephemeris's
  answer, or, when the ephemeris throws, a simulated position that depends
  only on the time of day (`simulatedAzAlt` and the start of `moveBodies`,
  home.jsx).
 */
module Fallback {
  import opened Sky
  import opened Projection

  /** A wall-clock reading: the hour and minute fields of the tick's date. */
  datatype ClockTime = ClockTime(hours: Hour, minutes: Minute)

  /** Fractional hour of the day, in [0, 24). */
  function HourOfDay(c: ClockTime): (h: real)
    ensures 0.0 <= h < 24.0
    ensures c.hours as real <= h < c.hours as real + 1.0
  {
    c.hours as real + c.minutes as real / 60.0
  }

  /** `Math.sin` only has to stay within [-1, 1]. */
  ghost predicate BoundedSine(sine: real -> real)
  {
    forall x :: -1.0 <= sine(x) <= 1.0
  }

  /** Sine is strictly positive on the open arc (0, pi). */
  ghost predicate PositiveOnArc(sine: real -> real)
  {
    forall x :: 0.0 < x < Pi ==> sine(x) > 0.0
  }

  /**
    What `Math.sin` gives at the points the fallback reaches: 0 at 0, 1 at
    pi/2, positive on the arc, and a tiny positive value (about 1.22e-16) at
    `Math.PI`, which lies just below the true pi.
   */
  ghost predicate ProgramSine(sine: real -> real)
  {
    && BoundedSine(sine)
    && sine(0.0) == 0.0
    && sine(Pi / 2.0) == 1.0
    && PositiveOnArc(sine)
    && 0.0 < sine(Pi) < 0.000000000000001
  }

  /** Progress of the sun through its 06:00-18:00 window, in [0, 1]. */
  function SunProgress(hour: real): (t: real)
    ensures 0.0 <= t <= 1.0
    ensures hour <= 6.0 ==> t == 0.0
    ensures 18.0 <= hour ==> t == 1.0
    ensures 0.0 < t < 1.0 <==> 6.0 < hour < 18.0
  {
    Clamp((hour - 6.0) / 12.0, 0.0, 1.0)
  }

  /**
    Progress of the moon through its 18:00-06:00 window, in [0, 1]; hours
    before 06:00 count as the previous evening's hours 24-30.
   */
  function MoonProgress(hour: real): (t: real)
    requires 0.0 <= hour < 24.0
    ensures 0.0 <= t < 1.0
    ensures 6.0 <= hour <= 18.0 ==> t == 0.0
    ensures 0.0 < t < 1.0 <==> hour < 6.0 || 18.0 < hour
  {
    var h := if hour < 6.0 then hour + 24.0 else hour;
    Clamp((h - 18.0) / 12.0, 0.0, 1.0)
  }

  /**
    The simulated sun as written: it sweeps east to west over the day on a
    half-sine arc of height pi/4. From 18:00 the progress is held at 1, so
    the altitude is `Math.sin(Math.PI)` times pi/4: slightly above 0.
   */
  function SimulatedSunAsWritten(c: ClockTime, sine: real -> real): (p: Position)
    requires BoundedSine(sine)
    ensures -0.6 * Pi <= p.azimuth <= 0.6 * Pi
    ensures -Pi / 4.0 <= p.altitude <= Pi / 4.0
    ensures InRange(p)
  {
    var t := SunProgress(HourOfDay(c));
    Position(-Pi * 0.6 + t * Pi * 1.2, sine(Pi * t) * (Pi / 4.0))
  }

  /**
    The simulated sun as intended: the same arc, with the sun on the horizon
    whenever its progress is at either end of the 06:00-18:00 window.
   */
  function SimulatedSun(c: ClockTime, sine: real -> real): (p: Position)
    requires BoundedSine(sine)
    ensures -0.6 * Pi <= p.azimuth <= 0.6 * Pi
    ensures -Pi / 4.0 <= p.altitude <= Pi / 4.0
    ensures InRange(p)
    ensures !(6.0 < HourOfDay(c) < 18.0) ==> p.altitude == 0.0
  {
    var t := SunProgress(HourOfDay(c));
    Position(-Pi * 0.6 + t * Pi * 1.2, if 0.0 < t < 1.0 then sine(Pi * t) * (Pi / 4.0) else 0.0)
  }

  /** The moon sweeps west to east over the night on a half-sine arc of height pi/5. */
  function SimulatedMoon(c: ClockTime, sine: real -> real): (p: Position)
    requires BoundedSine(sine)
    ensures -0.6 * Pi <= p.azimuth <= 0.6 * Pi
    ensures -Pi / 5.0 <= p.altitude <= Pi / 5.0
    ensures InRange(p)
  {
    var t := MoonProgress(HourOfDay(c));
    Position(Pi * 0.6 - t * Pi * 1.2, sine(Pi * t) * (Pi / 5.0))
  }

  /** The corrected simulated sun is above the horizon exactly between 06:00 and 18:00. */
  lemma SimulatedSunVisibility(c: ClockTime, sine: real -> real)
    requires BoundedSine(sine) && PositiveOnArc(sine)
    ensures SimulatedSun(c, sine).altitude > 0.0 <==> 6.0 < HourOfDay(c) < 18.0
  {
    var t := SunProgress(HourOfDay(c));
    if 0.0 < t < 1.0 {
      assert 0.0 < Pi * t < Pi;
    }
  }

  /**
    With the program's sine the simulated sun as written is above the
    horizon from 06:00 until midnight, not only until 18:00.
   */
  lemma SimulatedSunAsWrittenVisibility(c: ClockTime, sine: real -> real)
    requires ProgramSine(sine)
    ensures SimulatedSunAsWritten(c, sine).altitude > 0.0 <==> 6.0 < HourOfDay(c)
  {
    var t := SunProgress(HourOfDay(c));
    if t == 0.0 {
      assert Pi * t == 0.0;
    } else if t == 1.0 {
      assert Pi * t == Pi;
    } else {
      assert 0.0 < Pi * t < Pi;
    }
  }

  /**
    The two suns agree before 18:00 and differ from then on, where the one
    as written stays in the evening band just above the horizon.
   */
  lemma SimulatedSunsDifferFromDusk(c: ClockTime, sine: real -> real)
    requires ProgramSine(sine)
    ensures SimulatedSunAsWritten(c, sine) == SimulatedSun(c, sine) <==> HourOfDay(c) < 18.0
    ensures 18.0 <= HourOfDay(c) ==>
      && 0.0 < SimulatedSunAsWritten(c, sine).altitude
      && Classify(SimulatedSunAsWritten(c, sine).altitude) == Evening
      && Classify(SimulatedSun(c, sine).altitude) == Night
  {
    var t := SunProgress(HourOfDay(c));
    if t == 0.0 {
      assert Pi * t == 0.0;
    } else if t == 1.0 {
      assert Pi * t == Pi;
      assert 0.0 < sine(Pi) * (Pi / 4.0) < 0.25;
    }
  }

  /** The simulated moon is above the horizon exactly between 18:00 and 06:00. */
  lemma SimulatedMoonVisibility(c: ClockTime, sine: real -> real)
    requires BoundedSine(sine) && sine(0.0) == 0.0 && PositiveOnArc(sine)
    ensures SimulatedMoon(c, sine).altitude > 0.0 <==> HourOfDay(c) < 6.0 || 18.0 < HourOfDay(c)
  {
    var t := MoonProgress(HourOfDay(c));
    if t == 0.0 {
      assert Pi * t == 0.0;
    } else {
      assert 0.0 < Pi * t < Pi;
    }
  }

  /** At noon the simulated sun is due south and at the top of its arc. */
  lemma SimulatedSunAtNoon(sine: real -> real)
    requires BoundedSine(sine) && sine(Pi / 2.0) == 1.0
    ensures SimulatedSun(ClockTime(12, 0), sine) == Position(0.0, Pi / 4.0)
    ensures forall m: Minute, h: Hour ::
      SimulatedSun(ClockTime(h, m), sine).altitude <= SimulatedSun(ClockTime(12, 0), sine).altitude
  {
    assert SunProgress(HourOfDay(ClockTime(12, 0))) == 0.5;
    assert Pi * 0.5 == Pi / 2.0;
  }

  /** At midnight the simulated moon is due south and at the top of its arc. */
  lemma SimulatedMoonAtMidnight(sine: real -> real)
    requires BoundedSine(sine) && sine(Pi / 2.0) == 1.0
    ensures SimulatedMoon(ClockTime(0, 0), sine) == Position(0.0, Pi / 5.0)
  {
    assert MoonProgress(HourOfDay(ClockTime(0, 0))) == 0.5;
    assert Pi * 0.5 == Pi / 2.0;
  }

  /** What the ephemeris library answered on this tick: both positions, or an exception. */
  datatype Ephemeris = Computed(sun: Position, moon: Position) | Threw

  /** The pair of positions a tick works with. */
  datatype Positions = Positions(sun: Position, moon: Position)

  /**
    The ephemeris's positions when it answered; otherwise both simulated
    positions, with the corrected sun (a throw from either call discards both).
   */
  function ComputePositions(e: Ephemeris, c: ClockTime, sine: real -> real): (r: Positions)
    requires BoundedSine(sine)
    ensures e.Computed? ==> r.sun == e.sun && r.moon == e.moon
    ensures e.Threw? ==> InRange(r.sun) && InRange(r.moon)
    ensures e.Threw? ==> r.sun == SimulatedSun(c, sine) && r.moon == SimulatedMoon(c, sine)
  {
    match e
    case Computed(sun, moon) => Positions(sun, moon)
    case Threw => Positions(SimulatedSun(c, sine), SimulatedMoon(c, sine))
  }
}

=== FILE: mixer.dfy ===
/**
  The ambience mixer of home.jsx: four looping ambient tracks (one per
  theme), four one-shot cue tracks, and the rules that decide when they may
  be played (`playSFX`, `fadeAmbient`, `playAmbientIfAllowed`, `pauseAll`).
  Media calls are not made here: each rule returns the list of effects the
  browser layer is asked to carry out, and `Settle` says what state each
  track is left in once those effects (and their tweens) are done.
 */
module Mixer {
  import opened Sky

  /** The four rise/set cues. */
  datatype Cue = SunRise | SunSet | MoonRise | MoonSet

  /** The eight audio tracks: an ambient loop per theme and a one-shot per cue. */
  datatype Track = Ambient(theme: Theme) | Sfx(cue: Cue)

  /** Volume of every track that is meant to be heard (`const volume = 0.5`). */
  const Volume: real := 0.5

  /**
    One side effect requested from the browser layer. `FadeTo` is a volume
    tween over `seconds`; `MoveTo` and `SetOpacity` are tweens on a body's
    element (`xPercent` is the element's horizontal offset, centred on 0).
   */
  datatype Effect =
    | Unmute(track: Track)
    | SetVolume(track: Track, volume: real)
    | Rewind(track: Track)
    | Play(track: Track)
    | FadeTo(track: Track, volume: real, seconds: real)
    | Pause(track: Track)
    | MoveTo(body: Body, xPercent: real, yVh: real)
    | SetOpacity(body: Body, opacity: int)

  /** True when effect `e` acts on track `t`. */
  predicate Touches(e: Effect, t: Track)
  {
    !e.MoveTo? && !e.SetOpacity? && e.track == t
  }

  /** True when effect `e` acts on one of the ambient loops. */
  predicate OnAmbient(e: Effect)
  {
    !e.MoveTo? && !e.SetOpacity? && e.track.Ambient?
  }

  /** True when effect `e` acts on one of the cue tracks. */
  predicate OnCue(e: Effect)
  {
    !e.MoveTo? && !e.SetOpacity? && e.track.Sfx?
  }

  /** True when effect `e` tweens the sun or moon element rather than a track. */
  predicate OnBody(e: Effect)
  {
    e.MoveTo? || e.SetOpacity?
  }

  /** The page's state as the document reports it: `document.hidden` and `document.hasFocus()`. */
  datatype Page = Page(hidden: bool, focused: bool)

  /** Audio may be started only while the page is both visible and focused. */
  predicate Foreground(p: Page)
  {
    !p.hidden && p.focused
  }

  /** Every track, ambient ones first, in the order the source creates them. */
  const AllTracks: seq<Track> :=
    [Ambient(Morning), Ambient(Afternoon), Ambient(Evening), Ambient(Night),
     Sfx(SunRise), Sfx(SunSet), Sfx(MoonRise), Sfx(MoonSet)]

  /** Every track is one of the eight listed in `AllTracks`. */
  lemma AllTracksComplete(t: Track)
    ensures t in AllTracks
  {
    match t
    case Ambient(th) =>
      ThemeListed(th);
      var i :| 0 <= i < 4 && AllThemes[i] == th;
      assert AllTracks[i] == t;
    case Sfx(c) =>
      match c
      case SunRise => assert AllTracks[4] == t;
      case SunSet => assert AllTracks[5] == t;
      case MoonRise => assert AllTracks[6] == t;
      case MoonSet => assert AllTracks[7] == t;
  }

  // ---------------------------------------------------------------------------
  // What a list of effects leaves each track in

  /**
    State of one track once every requested tween has finished: whether it is
    playing, whether it is muted, and the volume it has settled at.
   */
  datatype Deck = Deck(playing: bool, muted: bool, volume: real)

  /** The state of every track, keyed by track; a missing key means "as loaded". */
  type Mix = map<Track, Deck>

  /**
    A track as the page loads it: ambient loops muted at volume 0, cues
    unmuted at the media default volume 1; nothing playing.
   */
  function Loaded(t: Track): Deck
  {
    if t.Ambient? then Deck(false, true, 0.0) else Deck(false, false, 1.0)
  }

  /** A track's deck in a mix; a track the mix has not touched is as loaded. */
  function Lookup(m: Mix, t: Track): Deck
  {
    if t in m then m[t] else Loaded(t)
  }

  /** What an audio effect does to the deck of the track it names. */
  function Affect(d: Deck, e: Effect): Deck
    requires !OnBody(e)
  {
    match e
    case Unmute(_) => d.(muted := false)
    case SetVolume(_, v) => d.(volume := v)
    case Rewind(_) => d
    case Play(_) => d.(playing := true)
    case FadeTo(_, v, _) => d.(volume := v)
    case Pause(_) => d.(playing := false)
  }

  /** Carries out one effect. A rejected `play()` is swallowed by the source; this is the case where it succeeds. */
  function Step(m: Mix, e: Effect): (m': Mix)
    ensures forall t :: !Touches(e, t) ==> Lookup(m', t) == Lookup(m, t)
  {
    if OnBody(e) then m else m[e.track := Affect(Lookup(m, e.track), e)]
  }

  /** Carries out a list of effects in order. */
  function Settle(m: Mix, effs: seq<Effect>): Mix
    decreases |effs|
  {
    if effs == [] then m else Settle(Step(m, effs[0]), effs[1..])
  }

  /** One step changes exactly the deck of the track the effect names, as `Affect` says. */
  lemma StepLookup(m: Mix, e: Effect, t: Track)
    ensures Lookup(Step(m, e), t) == if Touches(e, t) then Affect(Lookup(m, t), e) else Lookup(m, t)
  {
  }

  /** Settling two effects steps through them in order. */
  lemma SettleTwo(m: Mix, e1: Effect, e2: Effect)
    ensures Settle(m, [e1, e2]) == Step(Step(m, e1), e2)
  {
    assert [e1, e2][1..] == [e2];
    assert [e2][1..] == [];
    assert Settle(Step(m, e1), [e2]) == Settle(Step(Step(m, e1), e2), []);
  }

  /** Settling three effects steps through them in order. */
  lemma SettleThree(m: Mix, e1: Effect, e2: Effect, e3: Effect)
    ensures Settle(m, [e1, e2, e3]) == Step(Step(Step(m, e1), e2), e3)
  {
    assert [e1, e2, e3][1..] == [e2, e3];
    SettleTwo(Step(m, e1), e2, e3);
  }

  /** Three effects on one track act on its deck in order. */
  lemma SettleThreeOn(m: Mix, e1: Effect, e2: Effect, e3: Effect, t: Track)
    requires Touches(e1, t) && Touches(e2, t) && Touches(e3, t)
    ensures Lookup(Settle(m, [e1, e2, e3]), t) == Affect(Affect(Affect(Lookup(m, t), e1), e2), e3)
  {
    var m1 := Step(m, e1);
    var m2 := Step(m1, e2);
    SettleThree(m, e1, e2, e3);
    StepLookup(m, e1, t);
    StepLookup(m1, e2, t);
    StepLookup(m2, e3, t);
  }

  /** Effects carried out in two batches end where the whole list does. */
  lemma {:induction false} SettleConcat(m: Mix, a: seq<Effect>, b: seq<Effect>)
    ensures Settle(m, a + b) == Settle(Settle(m, a), b)
    decreases |a|
  {
    if a != [] {
      assert (a + b)[0] == a[0];
      assert (a + b)[1..] == a[1..] + b;
      SettleConcat(Step(m, a[0]), a[1..], b);
    } else {
      assert a + b == b;
    }
  }

  /** A track that no effect of the list touches keeps its state. */
  lemma {:induction false} SettleUntouched(m: Mix, effs: seq<Effect>, t: Track)
    requires forall i :: 0 <= i < |effs| ==> !Touches(effs[i], t)
    ensures Lookup(Settle(m, effs), t) == Lookup(m, t)
    decreases |effs|
  {
    if effs != [] {
      SettleUntouched(Step(m, effs[0]), effs[1..], t);
    }
  }

  /** A track is heard when it is playing, unmuted and above volume 0. */
  predicate Audible(m: Mix, t: Track)
  {
    var d := Lookup(m, t);
    d.playing && !d.muted && d.volume > 0.0
  }

  /** A track that would be heard once unmuted: playing above volume 0. */
  predicate Live(m: Mix, t: Track)
  {
    var d := Lookup(m, t);
    d.playing && d.volume > 0.0
  }

  /** True when effect `e` can make track `t` live: it starts it, or raises its volume above 0. */
  predicate Raises(e: Effect, t: Track)
  {
    Touches(e, t) && (e.Play? || ((e.SetVolume? || e.FadeTo?) && e.volume > 0.0))
  }

  /** Effects that raise nothing on `t` leave a silent track silent. */
  lemma {:induction false} SettleKeepsQuiet(m: Mix, effs: seq<Effect>, t: Track)
    requires forall e :: e in effs ==> !Raises(e, t)
    requires !Live(m, t)
    ensures !Live(Settle(m, effs), t)
    decreases |effs|
  {
    if effs != [] {
      StepLookup(m, effs[0], t);
      assert effs[0] in effs;
      assert forall e :: e in effs[1..] ==> e in effs;
      SettleKeepsQuiet(Step(m, effs[0]), effs[1..], t);
    }
  }

  /** Effects that never play `t` leave a stopped track stopped. */
  lemma {:induction false} SettleKeepsStopped(m: Mix, effs: seq<Effect>, t: Track)
    requires Play(t) !in effs
    requires !Lookup(m, t).playing
    ensures !Lookup(Settle(m, effs), t).playing
    decreases |effs|
  {
    if effs != [] {
      StepLookup(m, effs[0], t);
      assert effs[0] != Play(t);
      assert Play(t) !in effs[1..] by {
        assert forall e :: e in effs[1..] ==> e in effs;
      }
      SettleKeepsStopped(Step(m, effs[0]), effs[1..], t);
    }
  }

  // ---------------------------------------------------------------------------
  // The gating rules

  /**
    `playSFX`: a cue is played only once audio is unlocked and while the page
    is visible and focused; a suppressed cue is dropped, not queued. A played
    cue is set to the shared volume and rewound to the start first.
   */
  function PlaySfx(ready: bool, page: Page, c: Cue): (r: seq<Effect>)
    ensures r != [] <==> ready && Foreground(page)
    ensures Play(Sfx(c)) in r <==> ready && Foreground(page)
    ensures forall i :: 0 <= i < |r| ==> Touches(r[i], Sfx(c))
    ensures r != [] ==> |r| >= 2 && r[|r| - 2] == Rewind(Sfx(c)) && r[|r| - 1] == Play(Sfx(c))
  {
    if !ready then []
    else if page.hidden || !page.focused then []
    else [SetVolume(Sfx(c), Volume), Rewind(Sfx(c)), Play(Sfx(c))]
  }

  /** A played cue ends up playing at the shared volume, whatever state it was in. */
  lemma PlaySfxSettles(m: Mix, page: Page, c: Cue)
    requires Foreground(page)
    ensures Lookup(Settle(m, PlaySfx(true, page, c)), Sfx(c)).playing
    ensures Lookup(Settle(m, PlaySfx(true, page, c)), Sfx(c)).volume == Volume
  {
    var t := Sfx(c);
    assert PlaySfx(true, page, c) == [SetVolume(t, Volume), Rewind(t), Play(t)];
    SettleThreeOn(m, SetVolume(t, Volume), Rewind(t), Play(t), t);
  }

  /** Tweens every listed theme's ambient track down to silence. */
  function FadeOut(themes: seq<Theme>): (r: seq<Effect>)
    ensures |r| == |themes|
    ensures forall i :: 0 <= i < |r| ==> r[i] == FadeTo(Ambient(themes[i]), 0.0, 0.3)
  {
    if themes == [] then []
    else [FadeTo(Ambient(themes[0]), 0.0, 0.3)] + FadeOut(themes[1..])
  }

  /** A fade-out only lowers ambient loops; it starts nothing. */
  lemma FadeOutKinds(themes: seq<Theme>, e: Effect)
    requires e in FadeOut(themes)
    ensures OnAmbient(e) && !e.Play?
  {
  }

  /** After `FadeOut(themes)` the listed ambient tracks sit at volume 0 and nothing else changed. */
  lemma {:induction false} SettleFadeOut(m: Mix, themes: seq<Theme>, t: Track)
    ensures Lookup(Settle(m, FadeOut(themes)), t) ==
      if t.Ambient? && t.theme in themes then Lookup(m, t).(volume := 0.0) else Lookup(m, t)
    decreases |themes|
  {
    if themes != [] {
      var e := FadeTo(Ambient(themes[0]), 0.0, 0.3);
      assert FadeOut(themes)[0] == e;
      assert FadeOut(themes)[1..] == FadeOut(themes[1..]);
      SettleFadeOut(Step(m, e), themes[1..], t);
      assert t.Ambient? && t.theme in themes <==>
        (t == Ambient(themes[0]) || (t.Ambient? && t.theme in themes[1..]));
    }
  }

  /**
    `fadeAmbient`: crossfade to `newTheme`'s loop. Nothing happens while the
    page is hidden or unfocused; otherwise every ambient track fades to 0 and
    the new theme's track is started and faded up. Audio readiness is not
    consulted.
   */
  function FadeAmbient(page: Page, newTheme: Theme): (r: seq<Effect>)
    ensures r == [] <==> !Foreground(page)
    ensures forall e :: e in r ==> OnAmbient(e)
    ensures forall t :: Play(Ambient(t)) in r <==> Foreground(page) && t == newTheme
  {
    if page.hidden || !page.focused then []
    else
      forall e | e in FadeOut(AllThemes) ensures OnAmbient(e) && !e.Play? {
        FadeOutKinds(AllThemes, e);
      }
      CrossfadeKinds(FadeOut(AllThemes), newTheme);
      FadeOut(AllThemes) + [Play(Ambient(newTheme)), FadeTo(Ambient(newTheme), Volume, 0.5)]
  }

  /** Ambient effects that start nothing, followed by the new loop's start: only that loop is started. */
  lemma CrossfadeKinds(before: seq<Effect>, n: Theme)
    requires forall e :: e in before ==> OnAmbient(e) && !e.Play?
    ensures var r := before + [Play(Ambient(n)), FadeTo(Ambient(n), Volume, 0.5)];
      && (forall e :: e in r ==> OnAmbient(e))
      && (forall t :: Play(Ambient(t)) in r <==> t == n)
  {
  }

  /**
    The tail of a crossfade: after any earlier effects, the new loop plays at
    the shared volume and nothing else moves.
   */
  lemma SettleCrossfade(m: Mix, before: seq<Effect>, n: Theme, t: Track)
    ensures var d := Lookup(Settle(m, before + [Play(Ambient(n)), FadeTo(Ambient(n), Volume, 0.5)]), t);
      && (t == Ambient(n) ==> d.playing && d.volume == Volume)
      && (t != Ambient(n) ==> d == Lookup(Settle(m, before), t))
  {
    var play, fade := Play(Ambient(n)), FadeTo(Ambient(n), Volume, 0.5);
    var m1 := Settle(m, before);
    var m2 := Step(m1, play);
    SettleConcat(m, before, [play, fade]);
    SettleTwo(m1, play, fade);
    StepLookup(m1, play, t);
    StepLookup(m2, fade, t);
  }

  /**
    After a crossfade the new theme's track is playing at the shared volume,
    every other ambient track is at volume 0, and the cue tracks are untouched.
   */
  lemma FadeAmbientSettles(m: Mix, page: Page, newTheme: Theme, t: Track)
    requires Foreground(page)
    ensures var d := Lookup(Settle(m, FadeAmbient(page, newTheme)), t);
      && (t == Ambient(newTheme) ==> d.playing && d.volume == Volume)
      && (t.Ambient? && t != Ambient(newTheme) ==> d == Lookup(m, t).(volume := 0.0))
      && (t.Sfx? ==> d == Lookup(m, t))
  {
    assert FadeAmbient(page, newTheme) ==
      FadeOut(AllThemes) + [Play(Ambient(newTheme)), FadeTo(Ambient(newTheme), Volume, 0.5)];
    SettleCrossfade(m, FadeOut(AllThemes), newTheme, t);
    SettleFadeOut(m, AllThemes, t);
    if t.Ambient? {
      ThemeListed(t.theme);
    }
  }

  /** Once a crossfade settles, at most one ambient track can be heard: the new theme's. */
  lemma FadeAmbientLeavesOneAudible(m: Mix, page: Page, newTheme: Theme, t: Theme)
    requires Foreground(page)
    requires Audible(Settle(m, FadeAmbient(page, newTheme)), Ambient(t))
    ensures t == newTheme
  {
    FadeAmbientSettles(m, page, newTheme, Ambient(t));
  }

  /**
    `playAmbientIfAllowed`: resume `theme`'s loop, unmuted and faded up, but
    only once audio is unlocked and while the page is visible and focused.
   */
  function PlayAmbientIfAllowed(ready: bool, page: Page, theme: Theme): (r: seq<Effect>)
    ensures r != [] <==> ready && Foreground(page)
    ensures forall i :: 0 <= i < |r| ==> Touches(r[i], Ambient(theme))
    ensures forall t :: Play(t) in r <==> ready && Foreground(page) && t == Ambient(theme)
  {
    if !ready then []
    else if page.hidden then []
    else if !page.focused then []
    else [Unmute(Ambient(theme)), Play(Ambient(theme)), FadeTo(Ambient(theme), Volume, 0.25)]
  }

  /** A permitted resume leaves the theme's loop audible at the shared volume. */
  lemma PlayAmbientSettles(m: Mix, page: Page, theme: Theme)
    requires Foreground(page)
    ensures var d := Lookup(Settle(m, PlayAmbientIfAllowed(true, page, theme)), Ambient(theme));
      d.playing && !d.muted && d.volume == Volume
  {
    var n := Ambient(theme);
    assert PlayAmbientIfAllowed(true, page, theme) == [Unmute(n), Play(n), FadeTo(n, Volume, 0.25)];
    SettleThreeOn(m, Unmute(n), Play(n), FadeTo(n, Volume, 0.25), n);
  }

  /** Pauses each listed track. */
  function PauseEach(tracks: seq<Track>): (r: seq<Effect>)
    ensures |r| == |tracks|
    ensures forall i :: 0 <= i < |r| ==> r[i] == Pause(tracks[i])
  {
    if tracks == [] then [] else [Pause(tracks[0])] + PauseEach(tracks[1..])
  }

  /** Every listed track gets its pause. */
  lemma PauseEachCovers(tracks: seq<Track>, t: Track)
    requires t in tracks
    ensures Pause(t) in PauseEach(tracks)
  {
    var i :| 0 <= i < |tracks| && tracks[i] == t;
    assert PauseEach(tracks)[i] == Pause(t);
  }

  /** A pause list holds nothing but pauses. */
  lemma PauseEachOnlyPauses(tracks: seq<Track>, e: Effect)
    requires e in PauseEach(tracks)
    ensures e.Pause?
  {
  }

  /** `pauseAll` pauses every track. */
  lemma PauseTrack(t: Track)
    ensures Pause(t) in PauseEach(AllTracks)
  {
    AllTracksComplete(t);
    PauseEachCovers(AllTracks, t);
  }

  /** `pauseAll`: a hard stop of all eight tracks, ambient and cue alike. */
  function PauseAll(): (r: seq<Effect>)
    ensures forall t :: Pause(t) in r
    ensures forall e :: e in r ==> e.Pause?
    ensures forall e, t :: e in r ==> !Raises(e, t)
  {
    forall t ensures Pause(t) in PauseEach(AllTracks) {
      PauseTrack(t);
    }
    forall e | e in PauseEach(AllTracks) ensures e.Pause? {
      PauseEachOnlyPauses(AllTracks, e);
    }
    PauseEach(AllTracks)
  }

  /** After `PauseEach(tracks)` the listed tracks are stopped and nothing else changed. */
  lemma {:induction false} SettlePauseEach(m: Mix, tracks: seq<Track>, t: Track)
    ensures Lookup(Settle(m, PauseEach(tracks)), t) ==
      if t in tracks then Lookup(m, t).(playing := false) else Lookup(m, t)
    decreases |tracks|
  {
    if tracks != [] {
      assert PauseEach(tracks)[0] == Pause(tracks[0]);
      assert PauseEach(tracks)[1..] == PauseEach(tracks[1..]);
      SettlePauseEach(Step(m, Pause(tracks[0])), tracks[1..], t);
      assert t in tracks <==> t == tracks[0] || t in tracks[1..];
    }
  }

  /** After `pauseAll` no track is playing, whatever was playing before. */
  lemma PauseAllSilences(m: Mix, t: Track)
    ensures !Lookup(Settle(m, PauseAll()), t).playing
    ensures !Audible(Settle(m, PauseAll()), t)
  {
    AllTracksComplete(t);
    SettlePauseEach(m, AllTracks, t);
  }
}

=== FILE: picker.dfy ===
/**
  The static hour-based background of index.jsx: the hour of the page load
  picks a theme, the body to draw and a greeting, and the theme and body
  decide the classes of the positioned sky-object element, the stars layer
  and the "Leave a Message" button.
 */
module Picker {
  import opened Sky

  /** What the page shows for one hour: the theme, the body drawn and the greeting. */
  datatype Scene = Scene(theme: Theme, skyObject: Body, message: string)

  /**
    The greeting of the static page: the animated background's greeting,
    except that the night one is written with a straight apostrophe.
   */
  function StaticGreeting(t: Theme): string
  {
    match t
    case Night => NightOpening + "If you're up for work, drop me a message \U{1F4AC}"
    case _ => Greeting(t)
  }

  /** The two pages agree on every greeting but the night one. */
  lemma StaticGreetingDiffersOnlyAtNight(t: Theme)
    ensures StaticGreeting(t) == Greeting(t) <==> t != Night
  {
    if t == Night {
      // The closing sentences differ at their apostrophe, character 6.
      var i := |NightOpening| + 6;
      assert StaticGreeting(t)[i] == '\'';
      assert Greeting(t)[i] == '\U{2019}';
    }
  }

  /**
    The scene for the hour of the page load, as written: mornings 06-11 and
    afternoons 12-14 show the sun; the evening branch tests
    `hour >= 15 && hour < 15`; every other hour is night with the moon.
   */
  function SceneAt(hour: Hour): (r: Scene)
    ensures 6 <= hour < 12 ==> r.theme == Morning && r.skyObject == Sun
    ensures 12 <= hour < 15 ==> r.theme == Afternoon && r.skyObject == Sun
    ensures hour < 6 || 15 <= hour ==> r.theme == Night && r.skyObject == Moon
    ensures r.skyObject == Sun <==> r.theme == Morning || r.theme == Afternoon
    ensures r.message == StaticGreeting(r.theme)
  {
    if hour >= 6 && hour < 12 then Scene(Morning, Sun, StaticGreeting(Morning))
    else if hour >= 12 && hour < 15 then Scene(Afternoon, Sun, StaticGreeting(Afternoon))
    else if hour >= 15 && hour < 15 then Scene(Evening, Sun, StaticGreeting(Evening))
    else Scene(Night, Moon, StaticGreeting(Night))
  }

  /** The evening branch is dead: no hour of the day gives the evening theme. */
  lemma EveningUnreachable(hour: Hour)
    ensures SceneAt(hour).theme != Evening
  {
  }

  /**
    The scene with an evening window `15 <= hour < eveningEnd`, as the
    evening branch evidently means; the window's end is a parameter since the
    source does not say it.
   */
  function SceneWithEvening(hour: Hour, eveningEnd: int): (r: Scene)
    requires 15 <= eveningEnd <= 24
    ensures r.theme == Morning <==> 6 <= hour < 12
    ensures r.theme == Afternoon <==> 12 <= hour < 15
    ensures r.theme == Evening <==> 15 <= hour < eveningEnd
    ensures r.theme == Night <==> hour < 6 || eveningEnd <= hour
    ensures r.skyObject == Sun <==> r.theme != Night
    ensures r.message == StaticGreeting(r.theme)
  {
    if hour >= 6 && hour < 12 then Scene(Morning, Sun, StaticGreeting(Morning))
    else if hour >= 12 && hour < 15 then Scene(Afternoon, Sun, StaticGreeting(Afternoon))
    else if hour >= 15 && hour < eveningEnd then Scene(Evening, Sun, StaticGreeting(Evening))
    else Scene(Night, Moon, StaticGreeting(Night))
  }

  /** The page as written is the corrected picker with an empty evening window. */
  lemma AsWrittenHasEmptyEvening(hour: Hour)
    ensures SceneAt(hour) == SceneWithEvening(hour, 15)
  {
  }

  /** With any non-empty evening window, 15:00 is evening under the sun. */
  lemma EveningReachable(eveningEnd: int)
    requires 15 < eveningEnd <= 24
    ensures SceneWithEvening(15, eveningEnd) == Scene(Evening, Sun, StaticGreeting(Evening))
  {
  }

  // ---------------------------------------------------------------------------
  // Classes of the positioned sky-object element

  /** The class names the second sky-object element can carry. */
  datatype CssClass =
    | SkyObjectClass
    | BodyClass(body: Body)
    | PositionClass(theme: Theme)
    | BelowHorizon

  /** A theme's name as it appears in the page's class names. */
  function ThemeName(t: Theme): string
  {
    match t
    case Morning => "morning"
    case Afternoon => "afternoon"
    case Evening => "evening"
    case Night => "night"
  }

  /** A body's name as it appears in the page's class names. */
  function BodyName(b: Body): string
  {
    match b
    case Sun => "sun"
    case Moon => "moon"
  }

  /** The class name as it appears in the element's class attribute. */
  function ClassName(c: CssClass): string
  {
    match c
    case SkyObjectClass => "sky-object"
    case BodyClass(b) => BodyName(b)
    case PositionClass(t) => ThemeName(t) + "-position"
    case BelowHorizon => "below-horizon"
  }

  /** Distinct classes have distinct names, so a set of classes is a set of names. */
  lemma ClassNameInjective(c1: CssClass, c2: CssClass)
    ensures ClassName(c1) == ClassName(c2) ==> c1 == c2
  {
    var n1, n2 := ClassName(c1), ClassName(c2);
    if c1 != c2 && |n1| == |n2| {
      // Only "morning-position" and "evening-position" share a length.
      assert n1[0] != n2[0];
    }
  }

  /**
    The classes of the second sky-object element: a position class where the
    theme and body have one, and `below-horizon` for a sun outside the
    morning and for a moon outside the evening and the night. The source's
    two `evening-position` lines, one for the sun and one for the moon, give
    the same class to either body.
   */
  function SkyObjectClasses(theme: Theme, obj: Body): (r: set<CssClass>)
    ensures SkyObjectClass in r && BodyClass(obj) in r
    ensures r <= {SkyObjectClass, BodyClass(obj), PositionClass(theme), BelowHorizon}
    ensures PositionClass(theme) !in r <==>
      (theme == Night && obj == Sun) || (theme == Afternoon && obj == Moon)
    ensures BelowHorizon in r <==>
      (obj == Sun && theme != Morning) || (obj == Moon && theme != Evening && theme != Night)
  {
    {SkyObjectClass, BodyClass(obj)}
    + (if theme == Morning && obj == Sun then {PositionClass(Morning)} else {})
    + (if theme == Afternoon && obj == Sun then {PositionClass(Afternoon)} else {})
    + (if theme == Evening && obj == Sun then {PositionClass(Evening)} else {})
    + (if theme == Night && obj == Moon then {PositionClass(Night)} else {})
    + (if theme == Evening && obj == Moon then {PositionClass(Evening)} else {})
    + (if theme == Morning && obj == Moon then {PositionClass(Morning)} else {})
    + (if theme != Morning && obj == Sun then {BelowHorizon} else {})
    + (if theme != Evening && theme != Night && obj == Moon then {BelowHorizon} else {})
  }

  /** An element carries at most one position class, and only its own theme's. */
  lemma AtMostOnePosition(theme: Theme, obj: Body, t1: Theme, t2: Theme)
    requires PositionClass(t1) in SkyObjectClasses(theme, obj)
    requires PositionClass(t2) in SkyObjectClasses(theme, obj)
    ensures t1 == t2 == theme
  {
  }

  /**
    What the page load draws, hour by hour: the morning sun in place, the
    afternoon sun in place but also marked below the horizon, and the night
    moon in place.
   */
  lemma ClassesByHour(hour: Hour)
    ensures var s := SceneAt(hour);
      && (6 <= hour < 12 ==>
        SkyObjectClasses(s.theme, s.skyObject) == {SkyObjectClass, BodyClass(Sun), PositionClass(Morning)})
      && (12 <= hour < 15 ==>
        SkyObjectClasses(s.theme, s.skyObject)
          == {SkyObjectClass, BodyClass(Sun), PositionClass(Afternoon), BelowHorizon})
      && (hour < 6 || 15 <= hour ==>
        SkyObjectClasses(s.theme, s.skyObject) == {SkyObjectClass, BodyClass(Moon), PositionClass(Night)})
  {
  }

  /** With an evening window, an evening page load draws the sun in its evening place, below the horizon. */
  lemma EveningClasses(hour: Hour, eveningEnd: int)
    requires 15 <= eveningEnd <= 24
    requires 15 <= hour < eveningEnd
    ensures var s := SceneWithEvening(hour, eveningEnd);
      SkyObjectClasses(s.theme, s.skyObject)
        == {SkyObjectClass, BodyClass(Sun), PositionClass(Evening), BelowHorizon}
  {
  }

  // ---------------------------------------------------------------------------
  // Night-only elements

  /** The stars layer and the "Leave a Message" button are rendered only for the night theme. */
  predicate ShowsNightExtras(t: Theme)
  {
    t == Night
  }

  /** As written, the night extras appear exactly for page loads before 06:00 or from 15:00. */
  lemma NightExtrasByHour(hour: Hour)
    ensures ShowsNightExtras(SceneAt(hour).theme) <==> hour < 6 || 15 <= hour
  {
  }

  /** With an evening window, the night extras appear before 06:00 and from the window's end. */
  lemma NightExtrasWithEvening(hour: Hour, eveningEnd: int)
    requires 15 <= eveningEnd <= 24
    ensures ShowsNightExtras(SceneWithEvening(hour, eveningEnd).theme) <==> hour < 6 || eveningEnd <= hour
  {
  }
}

=== FILE: projection.dfy ===
/**
  Mapping of a body's horizontal coordinates (azimuth, altitude in radians)
  onto the screen: a linear horizontal band and a clamped vertical travel
  (`azAltToScreen`, home.jsx).
 */
module Projection {

  /** A fixed positive stand-in for `Math.PI`. */
  const Pi: real := 3.141592653589793

  /** Largest vertical travel of a body, in viewport-height units. */
  const Travel: real := 40.0

  /** Horizontal coordinates of a body, in radians. */
  datatype Position = Position(azimuth: real, altitude: real)

  /** Screen target of a body: percent across the sky, and vh below the middle. */
  datatype ScreenPoint = ScreenPoint(xPercent: real, yVh: real)

  /** Azimuth in [-pi, pi] and altitude in [-pi/2, pi/2]. */
  predicate InRange(p: Position)
  {
    -Pi <= p.azimuth <= Pi && -Pi / 2.0 <= p.altitude <= Pi / 2.0
  }

  /** `Math.max(Math.min(v, hi), lo)`: the nearest point of [lo, hi]. */
  function Clamp(v: real, lo: real, hi: real): (r: real)
    requires lo <= hi
    ensures lo <= r <= hi
    ensures lo <= v <= hi ==> r == v
    ensures v < lo ==> r == lo
    ensures hi < v ==> r == hi
  {
    var m := if v < hi then v else hi;
    if m > lo then m else lo
  }

  /**
    `azAltToScreen`: azimuth maps linearly from [-pi, pi] onto [0, 100]
    percent across the screen; altitude, clamped to [-pi/2, pi/2], maps onto
    [40, -40] vh, so a higher body is drawn higher.
   */
  function AzAltToScreen(p: Position): (s: ScreenPoint)
    ensures -Travel <= s.yVh <= Travel
    ensures s.yVh < 0.0 <==> p.altitude > 0.0
    ensures p.altitude >= Pi / 2.0 ==> s.yVh == -Travel
    ensures p.altitude <= -Pi / 2.0 ==> s.yVh == Travel
    ensures -Pi <= p.azimuth <= Pi <==> 0.0 <= s.xPercent <= 100.0
  {
    var x := (p.azimuth + Pi) / (2.0 * Pi);
    var altNorm := Clamp(p.altitude / (Pi / 2.0), -1.0, 1.0);
    ScreenPoint(x * 100.0, -altNorm * Travel)
  }

  /** The three reference azimuths land on the left edge, the middle and the right edge. */
  lemma AzimuthLandmarks(alt: real)
    ensures AzAltToScreen(Position(-Pi, alt)).xPercent == 0.0
    ensures AzAltToScreen(Position(0.0, alt)).xPercent == 50.0
    ensures AzAltToScreen(Position(Pi, alt)).xPercent == 100.0
  {
  }

  /** A body further round the horizon is drawn further to the right. */
  lemma XMonotone(p: Position, q: Position)
    requires p.azimuth <= q.azimuth
    ensures AzAltToScreen(p).xPercent <= AzAltToScreen(q).xPercent
  {
  }

  /** A higher body is drawn no lower (screen y grows downwards). */
  lemma YAntitone(p: Position, q: Position)
    requires p.altitude <= q.altitude
    ensures AzAltToScreen(q).yVh <= AzAltToScreen(p).yVh
  {
  }

  /**
    Within the declared ranges the projection loses nothing: the azimuth and
    the altitude can be read back from the screen point.
   */
  lemma ProjectionInvertible(p: Position)
    requires InRange(p)
    ensures var s := AzAltToScreen(p);
      s.xPercent / 100.0 * (2.0 * Pi) - Pi == p.azimuth
      && -s.yVh / Travel * (Pi / 2.0) == p.altitude
  {
  }
}

=== FILE: sky.dfy ===
/**
  Vocabulary shared by both background components: the four themes, the two
  sky bodies, clock readings, the greeting attached to each theme, and the
  classifier that turns a solar altitude into a theme (home.jsx).
 */
module Sky {

  /** The visual/audio theme of the background; exactly one is live at a time. */
  datatype Theme = Morning | Afternoon | Evening | Night

  /** The two bodies drawn on the sky. */
  datatype Body = Sun | Moon

  /** A wall-clock hour as `Date.getHours` reports it. */
  type Hour = h: int | 0 <= h < 24

  /** A wall-clock minute as `Date.getMinutes` reports it. */
  type Minute = m: int | 0 <= m < 60

  /** Every theme, in the order the ambient track table lists them. */
  const AllThemes: seq<Theme> := [Morning, Afternoon, Evening, Night]

  /** Every theme appears in `AllThemes`. */
  lemma ThemeListed(t: Theme)
    ensures t in AllThemes
  {
    match t
    case Morning => assert AllThemes[0] == t;
    case Afternoon => assert AllThemes[1] == t;
    case Evening => assert AllThemes[2] == t;
    case Night => assert AllThemes[3] == t;
  }

  /** The first sentence of the night message. */
  const NightOpening: string := "It's late \U{1F319} Meet you tomorrow! "

  /**
    The one fixed message the animated background shows for each theme
    (each literal is split in two only to keep it short).
   */
  function Greeting(t: Theme): string
  {
    match t
    case Morning => "Good Morning \U{2600}\U{FE0F} " + "Let's build something beautiful today."
    case Afternoon => "Good Afternoon \U{1F324} " + "Keep shining and creating!"
    case Evening => "Good Evening \U{1F307} " + "Time to relax or dream up new ideas."
    case Night => NightOpening + "If you\U{2019}re up for work, drop me a message \U{1F4AC}"
  }

  /** Distinct themes never share a message, so the message identifies the theme. */
  lemma GreetingInjective(t1: Theme, t2: Theme)
    ensures Greeting(t1) == Greeting(t2) ==> t1 == t2
  {
    // The four messages already differ in length.
    GreetingLength(t1);
    GreetingLength(t2);
  }

  /** Length of each message in code points. */
  lemma GreetingLength(t: Theme)
    ensures t == Morning ==> |Greeting(t)| == 54
    ensures t == Afternoon ==> |Greeting(t)| == 43
    ensures t == Evening ==> |Greeting(t)| == 51
    ensures t == Night ==> |Greeting(t)| == 73
  {
  }

  /**
    Theme for a solar altitude in radians. The thresholds are tested in
    order, first match wins, so the bands are half-open on the low side.
   */
  function Classify(alt: real): (t: Theme)
    ensures t == Afternoon <==> 0.6 < alt
    ensures t == Morning <==> 0.25 < alt <= 0.6
    ensures t == Evening <==> 0.0 < alt <= 0.25
    ensures t == Night <==> alt <= 0.0
  {
    if alt > 0.6 then Afternoon
    else if alt > 0.25 then Morning
    else if alt > 0.0 then Evening
    else Night
  }

  /** Where a theme sits on the altitude scale: a higher sun never gives a lower rank. */
  function Rank(t: Theme): nat
  {
    match t
    case Night => 0
    case Evening => 1
    case Morning => 2
    case Afternoon => 3
  }

  /** Raising the sun never moves the theme down the altitude scale. */
  lemma ClassifyMonotone(a1: real, a2: real)
    requires a1 <= a2
    ensures Rank(Classify(a1)) <= Rank(Classify(a2))
  {
  }

  /** The three thresholds themselves fall into the lower band. */
  lemma ClassifyBoundaries()
    ensures Classify(0.0) == Night
    ensures Classify(0.25) == Evening
    ensures Classify(0.6) == Morning
  {
  }
}

=== FILE: wrappers.dfy ===
/** An optional value, used where the background may have nothing to report. */
module Wrappers {

  datatype Option<+T> = None | Some(value: T)
}
